=== FILE: README.md ===
# WorkspaceExplorer aggregation core, modelled in Dafny

WorkspaceExplorer is a browser application that loads HistFactory JSON
workspaces (channels of samples, each sample carrying modifiers) and plots
their yields and uncertainties. This project models the pure computations
behind those plots, that is, the getters of the workspace store:

- the per-process yield totals and the process order;
- yields per channel;
- stacked yields, as absolute, as percentage and per bin;
- the names and resolved types of the modifiers;
- the normalisation-factor list;
- the three-stage uncertainty summary, per process, per systematic and per
  channel in quadrature.

It also models:

- the store-id allocator, which hands each loaded workspace a small
  integer id;
- the loop that picks HistFactory workspaces out of a HEPData record;
- the highlight selector used by the plots;
- the label-shortening helper.

Modules and files:

| file | module | models |
|---|---|---|
| `optional.dfy` | `Optional` | JavaScript `undefined` as `Option` |
| `seqs.dfy` | `Seqs` | sums, first-index, duplicate-free sequences, first-seen order (`Distinct`) |
| `records.dfy` | `Records` | a JavaScript object as an insertion-ordered list of fields, and the "create if missing, then update" loop as a fold with a per-key reference |
| `histfactory.dfy` | `HistFactory` | the workspace document and the order of the `channel / sample / modifier` loop |
| `sorting.dfy` | `Sorting` | the stable sort behind `process_names` |
| `yields.dfy` | `Yields` | `total_yield_per_process`, `process_names`, `yield_of_process_in_channel` |
| `stacks.dfy` | `Stacks` | `stacked_data`, `normalized_stacked_data`, `stacked_data_per_bin` |
| `modifiers.dfy` | `Modifiers` | `modifier_names`, `modifier_types`, `normfactors` |
| `uncertainties.dfy` | `Uncertainties` | `uncertainties_per_systematic_per_process` |
| `totals.dfy` | `Totals` | `uncertainties_per_systematic`, `uncertainties` |
| `storeid.dfy` | `StoreId` | `add_store_with_id`, `remove_store_with_id`, the HistFactory selection of `check_workspaces_on_HEPdata` |
| `highlight.dfy` | `Highlight` | `useHighlighted` |
| `strings.dfy` | `Strings` | `shorten_string` |

Numbers are modelled as `real`, so rounding is not modelled. Wherever
JavaScript would read `undefined` or divide by zero, the model either makes
the case a precondition (named after what it protects) or pads with 0 and
says so.

The store-id allocator and the highlight selector are Pinia stores and a
Vue composable holding mutable state. The model makes each state an
immutable value (`StoreId.Allocator`, `Highlight.Highlighter`). Each action
becomes a function from the old state to the new one, and returns the
id handed out where the action does.

Some behaviours of the code that the model keeps:

- **Freed store ids.** They are reused in the order they were freed (the
  head of `free_ids`), not lowest first. See `StoreId.FreedFirstComesBackFirst`.
- **No zero guards.** The code never guards a zero channel total or a zero
  nominal bin against division. The model requires them to be nonzero
  where the code divides.
- **Merged `normsys`/`histosys` pair.** Its shifts are the elementwise sum
  of the two parts' shifts. The shape shift is not scaled by the
  normalisation, in either order. Any other repeated type replaces the
  stored entry. See `Uncertainties.Merge`, `Uncertainties.NormHistoAddsUp`,
  `Uncertainties.HistoNormAddsUp` and `Uncertainties.LaterReplaces`.
- **Normfactor without a parameter.** A `normfactor` with no parameter of
  its name is still listed, with `fixed` false.
- **No normfactor scaling.** The getters never apply normfactor values to
  yields, so the model does not either.
- **Normalisation denominator.** `normalized_stacked_data` re-sums the slot
  heights; it does not read the top of the stack. For a stack from 0
  these are equal (`Stacks.SpanTelescopes`).

## Model

| member | source | states |
|---|---|---|
| Yields.TotalYieldPerProcess | src/stores/workspace.ts:62-78 | one field per sample name, in the order the names are first met, with no key twice; each field holds the sum over every sample of that name, in every channel, of its data |
| Sorting.SortDesc | src/stores/workspace.ts:42-44 | the result is a permutation of the input fields, is non-increasing by value, and keeps fields with equal values in their input order (stability of `Array.prototype.sort`) |
| Yields.ProcessNames | src/stores/workspace.ts:32-49 | the result is a permutation of the distinct process names, non-increasing in total yield, and names with equal totals keep their first-seen order |
| Yields.YieldInChannel | src/stores/workspace.ts:98-116 | 0 when no channel has the name; otherwise only the first channel of that name answers, with the summed data of its last sample of the process name, or 0 if it has none |
| Stacks.StackFrom | src/stores/workspace.ts:152-163 | each slot sits on the previous one starting from the base, has the given name and height, and the stack tops out at base plus the sum of the heights |
| Stacks.StackedData | src/stores/workspace.ts:145-169 | one stack per channel, in channel order, with one slot per process in `process_names` order, from 0, each slot as tall as that process's yield in the channel's name |
| Stacks.AbsentProcessHasEmptySlot | src/stores/workspace.ts:145-169 | a process with no sample in any channel of that name still occupies its slot there, with zero height |
| Stacks.SpanTelescopes | src/stores/workspace.ts:174-177 | the summed slot heights of a stack equal its top minus its base |
| Stacks.NormalizeChannel | src/stores/workspace.ts:173-182 | each slot's height becomes its percentage of the channel total; a stack from 0 still starts at 0 and now tops out at exactly 100 |
| Stacks.NormalizedStackedData | src/stores/workspace.ts:170-184 | one stack per channel over `process_names`; each slot keeps its process name and is as tall as that process's yield in the channel, as a percentage of the channel total; each nonempty stack runs from 0 to exactly 100 |
| Stacks.IndexOfSample | src/stores/workspace.ts:202-206 | -1 exactly when no sample has the name; otherwise the position of the first one that does |
| Stacks.BinHeight | src/stores/workspace.ts:207-213 | the bin of the first sample of the process name, or 0 when the channel lacks the process |
| Stacks.StackedDataPerBin | src/stores/workspace.ts:185-223 | per channel, the observation at the same position and one stack per bin of the first sample, over `process_names`, from 0, topping out at the sum of the bin heights |
| Modifiers.ModifierNames | src/stores/workspace.ts:242-255 | no name twice; every modifier's name is listed, only those are, and they appear in the order first met |
| Modifiers.ModifierNamed | src/stores/workspace.ts:242-255 | each modifier of each sample of each channel has its name in the list |
| Modifiers.ModifierTypes | src/stores/workspace.ts:256-308 | one entry per distinct channel name, in first-seen order; a name shared by several channels holds the table of the last of them |
| Modifiers.ModifierTypeAt | src/stores/workspace.ts:272-306 | for the last channel and the last sample of their names, the sample's table lists exactly the workspace's modifier names, and each maps to the type its modifiers of that name resolve to ("none" if it has none) |
| Modifiers.ResolveKindsAlternation | src/stores/workspace.ts:284-302 | the resolved type is "none" with no modifier, "normhisto" when the trailing alternating run of normsys/histosys has even length, and the last type otherwise |
| Modifiers.SplitSystematic | src/stores/workspace.ts:286-298 | a normsys and a histosys of one name, in either order, resolve to "normhisto" |
| Modifiers.LastKindWins | src/stores/workspace.ts:301 | any type other than normsys and histosys overwrites what came before |
| Modifiers.FixedFlag | src/stores/workspace.ts:131-136 | false when no parameter has the name; otherwise true exactly when the last parameter of the name has `fixed` present and true |
| Modifiers.CollectNormFactors | src/stores/workspace.ts:117-143 | the entries' names are the distinct normfactor names in first-seen order, each with its fixed flag |
| Modifiers.NormFactors | src/stores/workspace.ts:117-143 | the same, read from the first measurement's parameters, which must exist once a normfactor is met |
| Uncertainties.SystematicsOf | src/stores/workspace.ts:315-327 | only normsys, histosys and staterror modifiers are kept, and all of them are |
| Uncertainties.SystematicsOfSingle | src/stores/workspace.ts:315-327 | a single modifier is kept exactly when it is a normsys, histosys or staterror |
| Uncertainties.SystematicsOfAppend | src/stores/workspace.ts:315-327 | filtering a concatenation is concatenating the filtered parts, so the loop order and repeats are kept |
| Uncertainties.Shift | src/stores/workspace.ts:382-405 | one shift per bin up and down; normsys moves the nominal to nominal times hi/lo, histosys to the varied template, staterror shifts by the error up and by its negation down |
| Uncertainties.PerProcess | src/stores/workspace.ts:310-441 | one entry per channel name that has a systematic modifier, each once, in first-seen order |
| Uncertainties.PerProcessAt | src/stores/workspace.ts:329-436 | the cell for a channel, systematic and process is the in-order merge of exactly the matching modifiers, and it is absent exactly when there are none |
| Uncertainties.CombinedKind | src/stores/workspace.ts:350-436 | a cell exists exactly when some modifier merged into it, and its type is what `modifier_types` resolves for the same sequence of types |
| Uncertainties.Merge | src/stores/workspace.ts:361-436 | a stored normsys meeting a histosys, or a stored histosys meeting a normsys, is summed bin by bin up and down and retagged "normhisto"; with nothing stored, or any other pair of types, the new entry replaces the old one |
| Uncertainties.HistoNormAddsUp | src/stores/workspace.ts:371-380 | a histosys then a normsys of one name on one sample also give "normhisto", each bin's shift being the shape shift plus the normalisation shift |
| Uncertainties.LaterReplaces | src/stores/workspace.ts:406-413 | a modifier whose type does not pair with the entry stored so far (two normsys, a staterror, a third part after "normhisto") leaves exactly its own shifts and type |
| Uncertainties.NormHistoAddsUp | src/stores/workspace.ts:361-436 | a normsys then a histosys of one name on one sample give "normhisto", and each bin's shift is the normalisation shift plus the shape shift |
| Uncertainties.MergedPairExample | src/stores/workspace.ts:361-436 | on nominal [10, 10], normsys 1.2/0.9 plus histosys [12, 8]/[9, 7] accumulate to [4, 0] up and [-2, -4] down |
| Uncertainties.PerProcessShape | src/stores/workspace.ts:310-441 | in a well-formed workspace every channel has a systematic, every systematic a process, and every cell the channel's bin count up and down |
| Totals.ColumnSums | src/stores/workspace.ts:447-472 | bin i of the result is the sum over all rows of their bin i |
| Totals.SystematicOverall | src/stores/workspace.ts:447-475 | the overall band is as long as the first process's shifts, and each bin is the sum of that bin over all processes, up and down |
| Totals.SingleProcessOverall | src/stores/workspace.ts:447-475 | a systematic on a single process has that process's shifts as its overall band |
| Totals.OverallSnoc | src/stores/workspace.ts:454-472 | adding a process adds its shifts, bin by bin, to the overall band |
| Totals.PerSystematic | src/stores/workspace.ts:442-479 | the same channels and systematics in the same order, each keeping its processes and gaining its overall band |
| Totals.PerSystematicShape | src/stores/workspace.ts:442-479 | in a well-formed workspace the second stage reads no missing bin, and every overall band has the channel's bin count |
| Totals.FirstNamed | src/stores/workspace.ts:485-487 | absent exactly when no stacked channel has the name; otherwise the first one that does |
| Totals.QuadratureScales | src/stores/workspace.ts:508-517 | the summed squared relative shifts, times the nominal squared, are the summed squared shifts, and never negative |
| Totals.QuadratureMagnitude | src/stores/workspace.ts:520-526 | the combined shift squared is the sum of the squared shifts, and it has the nominal's sign |
| Totals.ThreeFourFive | src/stores/workspace.ts:504-526 | shifts 3 and 4 on a nominal of 100 combine to 5 |
| Totals.ChannelOverall | src/stores/workspace.ts:488-528 | the channel band is as long as its first systematic's band; in each bin it squares to the sum of the squared systematic bands, up and down, and it has the sign of the nominal: non-negative for a positive one, non-positive for a negative one |
| Totals.PerChannel | src/stores/workspace.ts:480-533 | the same channels in the same order, each keeping its systematics and gaining a band computed against the first stacked channel of its name |
| Totals.WorkspaceUncertainties | src/stores/workspace.ts:310-533 | the three stages together. The channels are those with a systematic modifier, once each, in first-seen order. Each channel keeps every systematic's per-process cells from the first stage, under the same names and in the same order, with their summed overall band. Each channel band has the channel's bin count; per bin it squares to the sum of the squared systematic bands and has the sign of the nominal of the first stacked channel of its name |
| StoreId.AddStore | src/stores/storeid.ts:90-109 | the new id is appended to the ids in use. It is 0 for a fresh allocator, else the id freed longest ago (taken off the free list), else one more than the largest id in use: larger than every id in use, with its predecessor in use |
| StoreId.RemoveStore | src/stores/storeid.ts:81-89 | an id not in use changes nothing; otherwise its first occurrence leaves the ids in use and the id joins the end of the free list, and no id is lost or made up |
| StoreId.AddValid | src/stores/storeid.ts:90-109 | adding keeps the invariant (both lists duplicate-free, disjoint, together exactly 0 .. n-1), and the id handed out is non-negative and not in use |
| StoreId.RemoveValid | src/stores/storeid.ts:81-89 | removing keeps the invariant |
| StoreId.RemoveAfterAdd | src/stores/storeid.ts:81-109 | removing the id just added restores the ids in use, and the id goes to the free list |
| StoreId.FreedFirstComesBackFirst | src/stores/storeid.ts:94-103 | with 0, 1, 2 in use, removing 2 and then 0 makes the next two ids 2 and then 0 |
| StoreId.HistFactoryIndicesFacts | src/stores/storeid.ts:50-55 | the reference lists exactly the positions of the HistFactory analyses, in ascending order |
| StoreId.SelectHistFactory | src/stores/storeid.ts:50-60 | fails exactly when some HistFactory analysis has no resource at its position; otherwise one entry per HistFactory analysis, in order, named after the resource at the same position and carrying the analysis URL |
| StoreId.CheckWorkspaces | src/stores/storeid.ts:46-72 | a record without analyses gives the empty list. Otherwise it fails exactly when some HistFactory analysis has no resource at its position; else it gives one entry per HistFactory analysis, in order, named after the resource at the same position and carrying the analysis URL |
| Highlight.IsHighlighted | src/composables/useHighlighted.ts:14-18 | an item is highlighted when nothing is selected (the sentinel -999) or when it is the selected one |
| Highlight.HighlightedItems | src/composables/useHighlighted.ts:14-18 | with a selection the selected item is highlighted and no other is; without one every item is |
| Highlight.Init | src/composables/useHighlighted.ts:4 | a fresh selector highlights every item |
| Highlight.Highlight | src/composables/useHighlighted.ts:6-8 | afterwards exactly the chosen item is highlighted, unless the sentinel -999 is chosen, which highlights every item |
| Highlight.Unhighlight | src/composables/useHighlighted.ts:10-12 | afterwards every item is highlighted |
| Highlight.HighlightNothingClears | src/composables/useHighlighted.ts:4-12 | highlighting the sentinel -999 gives the same cell as clearing the selection |
| Highlight.HighlightIdempotent | src/composables/useHighlighted.ts:6-8 | highlighting an item twice is highlighting it once, and the cell afterwards does not depend on the earlier selection |
| Highlight.SameSelection | src/composables/useHighlighted.ts:14-18 | two selectors highlight the same items exactly when they hold the same index |
| Strings.Shorten | src/utils/strings.ts:2-5 | a string within the bound is returned unchanged; a longer one is cut to the bound (clamped to 0) and gets "..." |
| Strings.ShortenBound | src/utils/strings.ts:2-5 | the result is at most the bound plus three characters long |
| Strings.ShortenIdempotent | src/utils/strings.ts:2-5 | shortening twice with the same bound is shortening once |

## Left out

- Network and file I/O are left out: fetching workspaces and HEPData records, reading local files, `Notify` messages, `console.log`, the `checking` flag and creating the per-id workspace stores. The HEPData model starts from the parsed record.
- A HEPData reply that is not JSON or is `null` is not modelled; it belongs to the fetch.
- The display getters are not modelled: `process_titles`, `channel_names`, `channel_titles`, `colors`. Neither are the state actions (loading, deleting, SVG URLs) or the plotting components. They only format or route data.
- The duplicate HEPData selection loop in `src/core/hepdata.ts` is not part of this model; it repeats the one in `storeid.ts`.
- The post-fit projector and the fit-service polling are not part of this model.
- Records.Put: JavaScript lists integer-like object keys ("0", "12") before all others, in numeric order. The model keeps plain insertion order for every key.
- Numbers are `real`, not IEEE doubles. Rounding, NaN and Infinity are not modelled.
- Uncertainties.At pads a missing bin with 0, where JavaScript reads `undefined` and produces NaN. Well-formed workspaces (`HistFactory.WellFormed`, the HistFactory shape requirement) never reach it.
- Stacks.NormalizedStackedData requires a nonzero total for every nonempty channel. The code divides by zero there.
- Totals.WorkspaceUncertainties requires `WellFormed`, `PerBinReadable` and `NonZeroNominals`. `WellFormed` is the HistFactory shape requirement: every sample of a channel name has that name's bin count, and every per-bin payload covers it. It is stronger than the code needs. For example, a channel whose modifier-free sample has more bins than its systematic sample still gives finite bands in the code, and this member promises nothing for it. Such inputs are covered stage by stage: `Totals.PerChannel(Totals.PerSystematic(Uncertainties.PerProcess(ws)), Stacks.StackedDataPerBin(ws), root)` under `Totals.AllBalanced` and `Totals.TableReadable`. Without `PerBinReadable` and `NonZeroNominals` the code reads `undefined` or divides by zero. `NonZeroNominals` asks only for the stacked channels the loop divides by: the first of each name that has a systematic modifier.
- Stacks.StackedDataPerBin requires `PerBinReadable`: one observation per channel, a first sample in every channel, and no shorter first sample of another process name. The code throws or reads `undefined` on those inputs, and the model does not describe those failures.
- Modifiers.NormFactors requires a first measurement once a `normfactor` is met. The code throws reading `measurements[0]` of an empty list there, and the model does not describe that failure.
- Totals.SystematicOverall requires `Balanced` for the same reason.
- Totals.PerChannel requires `TableReadable` for the same reason.
- Totals.Quadrature: `** 0.5` is a square-root function passed as a parameter and required to be one (`IsSquareRoot`), so the bands are stated through their squares.
- The getters write into the cached result of the previous getter. `normalized_stacked_data` rescales the stacks of `stacked_data`. `uncertainties_per_systematic` and `uncertainties` extend the same summary object. The model treats each stage as a pure function of the previous one and does not model that aliasing.
- StoreId.AddStore does not model the fallback for an `undefined` head of a nonempty free list, which cannot happen.
- Strings.Shorten counts characters, where JavaScript counts UTF-16 code units.
- Highlight.IsHighlighted is a pure reading of the cell; Vue reactivity is not modelled.

=== FILE: highlight.dfy ===
/** The highlight selector used by the plots: one cell holding the index of
    the highlighted item, where the sentinel -999 means that nothing is
    selected and so every item is drawn highlighted. */
module Highlight {

  /** The value of `highlighted_index` meaning "no selection". */
  const Nothing: int := -999

  /** The `highlighted_index` cell. */
  datatype Highlighter = Highlighter(index: int)

  /** `ishighlighted(i)`: with nothing selected every item is highlighted,
      otherwise only the selected one. */
  predicate IsHighlighted(h: Highlighter, i: int) {
    h.index == Nothing || i == h.index
  }

  /** With a selection, the selected item is the one item highlighted;
      without one, every item is. */
  lemma HighlightedItems(h: Highlighter)
    ensures h.index != Nothing ==>
      IsHighlighted(h, h.index) && forall i :: IsHighlighted(h, i) ==> i == h.index
    ensures h.index == Nothing ==> forall i :: IsHighlighted(h, i)
  {
  }

  /** The cell as `useHighlighted()` creates it: every item is highlighted. */
  function Init(): (h: Highlighter)
    ensures forall i :: IsHighlighted(h, i)
  {
    Highlighter(Nothing)
  }

  /** `highlight(k)`: afterwards exactly `k` is highlighted, unless `k` is
      the sentinel itself, in which case every item is. */
  function Highlight(h: Highlighter, k: int): (r: Highlighter)
    ensures k != Nothing ==> forall i :: IsHighlighted(r, i) <==> i == k
    ensures k == Nothing ==> forall i :: IsHighlighted(r, i)
  {
    Highlighter(k)
  }

  /** `unhighlight()`: every item is highlighted again. */
  function Unhighlight(h: Highlighter): (r: Highlighter)
    ensures forall i :: IsHighlighted(r, i)
  {
    Highlighter(Nothing)
  }

  /** Highlighting the sentinel index is the same as clearing the selection. */
  lemma HighlightNothingClears(h: Highlighter)
    ensures Highlight(h, Nothing) == Unhighlight(h)
  {
  }

  /** Highlighting twice is highlighting once, and the earlier selection
      does not matter. */
  lemma HighlightIdempotent(h: Highlighter, g: Highlighter, k: int)
    ensures Highlight(Highlight(h, k), k) == Highlight(h, k)
    ensures Highlight(h, k) == Highlight(g, k)
  {
  }

  /** Two cells highlight the same items exactly when they hold the same index. */
  lemma SameSelection(h: Highlighter, g: Highlighter)
    ensures (forall i :: IsHighlighted(h, i) == IsHighlighted(g, i)) <==> h == g
  {
    if forall i :: IsHighlighted(h, i) == IsHighlighted(g, i) {
      if h.index != Nothing {
        assert !IsHighlighted(h, h.index + 1);
        assert IsHighlighted(g, h.index);
      }
      if g.index != Nothing {
        assert !IsHighlighted(g, g.index + 1);
        assert IsHighlighted(h, g.index);
      }
    }
  }
}

=== FILE: histfactory.dfy ===
/** The parsed HistFactory JSON workspace the getters read: channels of
    samples (processes) carrying modifiers, measurements whose first config
    holds the parameter settings, and one observation per channel. */
module HistFactory {
  import opened Optional

  /** A modifier `type` string other than the five this code knows. */
  type OtherKind = k: string
    | k != "normfactor" && k != "normsys" && k != "histosys" && k != "staterror" && k != "lumi"
    witness ""

  /** A modifier: its name and a payload whose shape follows its `type`. */
  datatype Modifier =
    | NormFactor(name: string)
    | NormSys(name: string, hi: real, lo: real)
    | HistoSys(name: string, hiData: seq<real>, loData: seq<real>)
    | StatError(name: string, errors: seq<real>)
    | Lumi(name: string)
    | Other(name: string, kind: OtherKind)

  /** The modifier's `type` string as it appears in the JSON document. */
  function Kind(m: Modifier): (k: string)
    ensures m.Other? <==> k !in {"normfactor", "normsys", "histosys", "staterror", "lumi"}
  {
    match m
    case NormFactor(_) => "normfactor"
    case NormSys(_, _, _) => "normsys"
    case HistoSys(_, _, _) => "histosys"
    case StatError(_, _) => "staterror"
    case Lumi(_) => "lumi"
    case Other(_, k) => k
  }

  /** A `normsys` and a `histosys` part of one systematic, met in either
      order under the same name; the getters record the pair as `normhisto`. */
  predicate PairsWith(stored: string, kind: string) {
    (stored == "histosys" && kind == "normsys") || (stored == "normsys" && kind == "histosys")
  }

  datatype Sample = Sample(name: string, data: seq<real>, modifiers: seq<Modifier>)

  datatype Channel = Channel(name: string, samples: seq<Sample>)

  /** A measurement parameter; only the fields the getters read are kept. */
  datatype Parameter = Parameter(name: string, fixed: Option<bool>)

  datatype Config = Config(parameters: seq<Parameter>, poi: string)

  datatype Measurement = Measurement(name: string, config: Config)

  datatype Observation = Observation(name: string, data: seq<real>)

  datatype Workspace = Workspace(channels: seq<Channel>, measurements: seq<Measurement>,
                                 observations: seq<Observation>)

  /** A sample together with the name of the channel holding it. */
  datatype Placed = Placed(channel: string, sample: Sample)

  /** One modifier as the loop `for channel, for sample, for modifier` visits it. */
  datatype Attached = Attached(channel: string, sample: Sample, modifier: Modifier)

  function PlacedName(p: Placed): string { p.sample.name }

  function AttachedName(a: Attached): string { a.modifier.name }

  /** The samples of a channel, tagged with the channel name. */
  function PlaceAll(c: Channel): (r: seq<Placed>)
    ensures |r| == |c.samples|
    ensures forall j :: 0 <= j < |r| ==> r[j] == Placed(c.name, c.samples[j])
  {
    seq(|c.samples|, j requires 0 <= j < |c.samples| => Placed(c.name, c.samples[j]))
  }

  /** Every sample of every channel, in the order `for c of channels, for p of c.samples`. */
  function Samples(cs: seq<Channel>): (r: seq<Placed>)
    ensures forall k :: 0 <= k < |r| ==> exists i :: 0 <= i < |cs| && r[k] in PlaceAll(cs[i])
    ensures forall i, j :: 0 <= i < |cs| && 0 <= j < |cs[i].samples| ==> Placed(cs[i].name, cs[i].samples[j]) in r
  {
    if |cs| == 0 then []
    else
      var front := Samples(cs[..|cs| - 1]);
      assert forall i :: 0 <= i < |cs| - 1 ==> cs[..|cs| - 1][i] == cs[i];
      front + PlaceAll(cs[|cs| - 1])
  }

  /** The modifiers of one placed sample. */
  function AttachAll(p: Placed): (r: seq<Attached>)
    ensures |r| == |p.sample.modifiers|
    ensures forall j :: 0 <= j < |r| ==> r[j] == Attached(p.channel, p.sample, p.sample.modifiers[j])
  {
    seq(|p.sample.modifiers|, j requires 0 <= j < |p.sample.modifiers| =>
      Attached(p.channel, p.sample, p.sample.modifiers[j]))
  }

  /** Every modifier of the listed samples, in loop order. */
  function Attachments(ps: seq<Placed>): (r: seq<Attached>)
    ensures forall k :: 0 <= k < |r| ==> exists i :: 0 <= i < |ps| && r[k] in AttachAll(ps[i])
    ensures forall i, j :: 0 <= i < |ps| && 0 <= j < |ps[i].sample.modifiers| ==>
      Attached(ps[i].channel, ps[i].sample, ps[i].sample.modifiers[j]) in r
  {
    if |ps| == 0 then []
    else
      var front := Attachments(ps[..|ps| - 1]);
      assert forall i :: 0 <= i < |ps| - 1 ==> ps[..|ps| - 1][i] == ps[i];
      front + AttachAll(ps[|ps| - 1])
  }

  /** The placed sample a listed modifier comes from. */
  lemma AttachedOrigin(ps: seq<Placed>, a: Attached) returns (i: nat)
    requires a in Attachments(ps)
    ensures i < |ps| && a.channel == ps[i].channel && a.sample == ps[i].sample
  {
    i :| 0 <= i < |ps| && a in AttachAll(ps[i]);
    var j :| 0 <= j < |AttachAll(ps[i])| && AttachAll(ps[i])[j] == a;
  }

  /** Every modifier of the workspace, in the order of the getters' triple loop. */
  function AllAttachments(ws: Workspace): seq<Attached> {
    Attachments(Samples(ws.channels))
  }

  /** The bin count of the channel named `cn`: the data length of the first
      sample placed in a channel of that name (0 when there is none). */
  function Bins(ps: seq<Placed>, cn: string): nat {
    if |ps| == 0 then 0
    else if ps[0].channel == cn then |ps[0].sample.data|
    else Bins(ps[1..], cn)
  }

  /** A modifier's per-bin payload covers the `n` bins of its sample. */
  predicate PayloadFits(m: Modifier, n: nat) {
    match m
    case HistoSys(_, hiData, loData) => |hiData| >= n && |loData| >= n
    case StatError(_, errors) => |errors| >= n
    case _ => true
  }

  /** The shape the uncertainty getters rely on to stay free of `undefined`
      reads (which would turn into NaN): every sample of a channel name has
      that channel name's bin count, and every per-bin payload covers it. */
  predicate WellFormed(ws: Workspace) {
    var ps := Samples(ws.channels);
    && (forall k :: 0 <= k < |ps| ==> |ps[k].sample.data| == Bins(ps, ps[k].channel))
    && (forall k, m :: 0 <= k < |ps| && m in ps[k].sample.modifiers ==> PayloadFits(m, |ps[k].sample.data|))
  }
}

=== FILE: modifiers.dfy ===
/** Modifier getters of the workspace store: `modifier_names`,
    `modifier_types` and `normfactors`. */
module Modifiers {
  import opened Optional
  import opened Seqs
  import opened Records
  import opened HistFactory
  import opened Yields

  function ModifierName(m: Modifier): string { m.name }

  function SampleName(s: Sample): string { s.name }

  function ChannelName(c: Channel): string { c.name }

  /** The modifier names in the order of the triple loop over channels,
      samples and modifiers, repeats included. */
  function NamesMet(ws: Workspace): (names: seq<string>)
    ensures |names| == |AllAttachments(ws)|
    ensures forall k :: 0 <= k < |names| ==> names[k] == AllAttachments(ws)[k].modifier.name
  {
    KeysOf(AllAttachments(ws), AttachedName)
  }

  /** `modifier_names`: every modifier name of the workspace once, in the
      order of the triple loop, each where it is first met. */
  function ModifierNames(ws: Workspace): (r: seq<string>)
    ensures NoDup(r)
    ensures forall k :: 0 <= k < |AllAttachments(ws)| ==> AllAttachments(ws)[k].modifier.name in r
    ensures forall i :: 0 <= i < |r| ==> r[i] in NamesMet(ws)
    ensures forall i, j :: 0 <= i < j < |r| ==> FirstIndex(NamesMet(ws), r[i]) < FirstIndex(NamesMet(ws), r[j])
  {
    var names := NamesMet(ws);
    DistinctOrder(names);
    Distinct(names)
  }

  /** Every modifier of every sample has its name listed. */
  lemma ModifierNamed(ws: Workspace, i: nat, j: nat, m: Modifier)
    requires i < |ws.channels| && j < |ws.channels[i].samples|
    requires m in ws.channels[i].samples[j].modifiers
    ensures m.name in ModifierNames(ws)
  {
    var c := ws.channels[i];
    var p := Placed(c.name, c.samples[j]);
    var ps := Samples(ws.channels);
    assert p in ps;
    var k :| 0 <= k < |ps| && ps[k] == p;
    var n :| 0 <= n < |p.sample.modifiers| && p.sample.modifiers[n] == m;
    var a := Attached(ps[k].channel, ps[k].sample, ps[k].sample.modifiers[n]);
    assert a in AllAttachments(ws);
    var l :| 0 <= l < |AllAttachments(ws)| && AllAttachments(ws)[l] == a;
  }

  /** One step of the per-sample loop of `modifier_types`: a `normsys` that
      meets a stored `histosys` of the same name, or the reverse, is
      recorded as `normhisto`; any other type overwrites what is stored. */
  function Resolve(stored: string, kind: string): string {
    if PairsWith(stored, kind) then "normhisto" else kind
  }

  /** The loop body, reading the stored type (every name starts as `none`). */
  function ResolveStep(u: (), stored: Option<string>, m: Modifier): string {
    Resolve(stored.GetOr("none"), Kind(m))
  }

  /** Reference: the types of the modifiers named `mn`, in order. */
  function KindsNamed(ms: seq<Modifier>, mn: string): seq<string> {
    if |ms| == 0 then []
    else KindsNamed(ms[..|ms| - 1], mn) + (if ms[|ms| - 1].name == mn then [Kind(ms[|ms| - 1])] else [])
  }

  /** Reference: the type recorded after reading `kinds` in order from `none`. */
  function ResolveKinds(kinds: seq<string>): string {
    if |kinds| == 0 then "none" else Resolve(ResolveKinds(kinds[..|kinds| - 1]), kinds[|kinds| - 1])
  }

  /** A table with every name of `names` set to `none`. */
  function NoneTable(names: seq<string>): (r: Record<string>)
    ensures Keys(r) == names
    ensures forall k :: 0 <= k < |r| ==> r[k].value == "none"
  {
    seq(|names|, k requires 0 <= k < |names| => Field(names[k], "none"))
  }

  lemma {:induction false} SampleTypeFold(ms: seq<Modifier>, mn: string)
    ensures FoldKey(Some("none"), ms, mn, (), ModifierName, ResolveStep) == Some(ResolveKinds(KindsNamed(ms, mn)))
  {
    if |ms| > 0 {
      var p := ms[..|ms| - 1];
      SampleTypeFold(p, mn);
      if ms[|ms| - 1].name == mn {
        var ks := KindsNamed(p, mn) + [Kind(ms[|ms| - 1])];
        assert ks[..|ks| - 1] == KindsNamed(p, mn);
      } else {
        assert KindsNamed(ms, mn) == KindsNamed(p, mn);
      }
    }
  }

  /** The types of one sample: for every name of `names`, the type its
      modifiers of that name leave behind. */
  function SampleTypes(names: seq<string>, s: Sample): (r: Record<string>)
    ensures NoDup(names) && (forall k :: 0 <= k < |s.modifiers| ==> s.modifiers[k].name in names) ==> Keys(r) == names
    ensures forall mn :: mn in names ==> Get(r, mn) == Some(ResolveKinds(KindsNamed(s.modifiers, mn)))
  {
    var init := NoneTable(names);
    var r := Accumulate(init, s.modifiers, (), ModifierName, ResolveStep);
    SampleTypesFacts(names, s, init, r);
    r
  }

  lemma SampleTypesFacts(names: seq<string>, s: Sample, init: Record<string>, r: Record<string>)
    requires init == NoneTable(names)
    requires r == Accumulate(init, s.modifiers, (), ModifierName, ResolveStep)
    ensures NoDup(names) && (forall k :: 0 <= k < |s.modifiers| ==> s.modifiers[k].name in names) ==> Keys(r) == names
    ensures forall mn :: mn in names ==> Get(r, mn) == Some(ResolveKinds(KindsNamed(s.modifiers, mn)))
  {
    if NoDup(names) && (forall k :: 0 <= k < |s.modifiers| ==> s.modifiers[k].name in names) {
      SampleTypesKeys(names, s);
    }
    forall mn | mn in names
      ensures Get(r, mn) == Some(ResolveKinds(KindsNamed(s.modifiers, mn)))
    {
      SampleTypeAt(names, s, init, mn);
    }
  }

  /** Starting from every name of `names`, the loop adds no key when every
      modifier's name is among them. */
  lemma SampleTypesKeys(names: seq<string>, s: Sample)
    requires NoDup(names) && forall k :: 0 <= k < |s.modifiers| ==> s.modifiers[k].name in names
    ensures Keys(Accumulate(NoneTable(names), s.modifiers, (), ModifierName, ResolveStep)) == names
  {
    var ks := KeysOf(s.modifiers, ModifierName);
    assert forall i :: 0 <= i < |ks| ==> ks[i] in names;
    DistinctAbsorbs(names, ks);
  }

  lemma SampleTypeAt(names: seq<string>, s: Sample, init: Record<string>, mn: string)
    requires init == NoneTable(names) && mn in names
    ensures Get(Accumulate(init, s.modifiers, (), ModifierName, ResolveStep), mn) == Some(ResolveKinds(KindsNamed(s.modifiers, mn)))
  {
    AccumulateAt(init, s.modifiers, (), ModifierName, ResolveStep, mn);
    assert Get(init, mn) == Some("none");
    SampleTypeFold(s.modifiers, mn);
  }

  function SampleTypesStep(names: seq<string>, stored: Option<Record<string>>, s: Sample): Record<string> {
    SampleTypes(names, s)
  }

  /** The types of one channel, keyed by sample name; a later sample of the
      same name replaces the earlier one's table. */
  function ChannelTypes(names: seq<string>, c: Channel): (r: Record<Record<string>>)
    ensures UniqueKeys(r) && Keys(r) == Distinct(KeysOf(c.samples, SampleName))
    ensures forall j :: 0 <= j < |c.samples| && LastSampleNamed(c.samples, j, c.samples[j].name) ==>
      Get(r, c.samples[j].name) == Some(SampleTypes(names, c.samples[j]))
  {
    ChannelTypesFacts(names, c);
    Accumulate([], c.samples, names, SampleName, SampleTypesStep)
  }

  lemma ChannelTypesFacts(names: seq<string>, c: Channel)
    ensures var r := Accumulate([], c.samples, names, SampleName, SampleTypesStep);
      && UniqueKeys(r) && Keys(r) == Distinct(KeysOf(c.samples, SampleName))
      && forall j :: 0 <= j < |c.samples| && LastSampleNamed(c.samples, j, c.samples[j].name) ==>
           Get(r, c.samples[j].name) == Some(SampleTypes(names, c.samples[j]))
  {
    AccumulateFresh(c.samples, names, SampleName, SampleTypesStep);
    forall j | 0 <= j < |c.samples| && LastSampleNamed(c.samples, j, c.samples[j].name)
      ensures Get(Accumulate([], c.samples, names, SampleName, SampleTypesStep), c.samples[j].name)
           == Some(SampleTypes(names, c.samples[j]))
    {
      AccumulateLastWins([], c.samples, names, SampleName, SampleTypesStep, j);
    }
  }

  function ChannelTypesStep(names: seq<string>, stored: Option<Record<Record<string>>>, c: Channel): Record<Record<string>> {
    ChannelTypes(names, c)
  }

  /** Channel `i` is the last one named `cn`. */
  predicate LastChannelNamed(cs: seq<Channel>, i: int, cn: string) {
    0 <= i < |cs| && cs[i].name == cn && forall i' :: i < i' < |cs| ==> cs[i'].name != cn
  }

  /** The loop of `modifier_types` over the channels, for the name list `names`. */
  function TypesOver(cs: seq<Channel>, names: seq<string>): (r: Record<Record<Record<string>>>)
    ensures UniqueKeys(r) && Keys(r) == Distinct(KeysOf(cs, ChannelName))
    ensures forall i :: 0 <= i < |cs| && LastChannelNamed(cs, i, cs[i].name) ==>
      Get(r, cs[i].name) == Some(ChannelTypes(names, cs[i]))
  {
    TypesOverFacts(cs, names);
    Accumulate([], cs, names, ChannelName, ChannelTypesStep)
  }

  lemma TypesOverFacts(cs: seq<Channel>, names: seq<string>)
    ensures var r := Accumulate([], cs, names, ChannelName, ChannelTypesStep);
      && UniqueKeys(r) && Keys(r) == Distinct(KeysOf(cs, ChannelName))
      && forall i :: 0 <= i < |cs| && LastChannelNamed(cs, i, cs[i].name) ==>
           Get(r, cs[i].name) == Some(ChannelTypes(names, cs[i]))
  {
    AccumulateFresh(cs, names, ChannelName, ChannelTypesStep);
    forall i | 0 <= i < |cs| && LastChannelNamed(cs, i, cs[i].name)
      ensures Get(Accumulate([], cs, names, ChannelName, ChannelTypesStep), cs[i].name) == Some(ChannelTypes(names, cs[i]))
    {
      AccumulateLastWins([], cs, names, ChannelName, ChannelTypesStep, i);
    }
  }

  /** `modifier_types`: channel name to sample name to modifier name to
      type; the last channel and the last sample of a name win. */
  function ModifierTypes(ws: Workspace): (r: Record<Record<Record<string>>>)
    ensures UniqueKeys(r) && Keys(r) == Distinct(KeysOf(ws.channels, ChannelName))
    ensures forall i :: 0 <= i < |ws.channels| && LastChannelNamed(ws.channels, i, ws.channels[i].name) ==>
      Get(r, ws.channels[i].name) == Some(ChannelTypes(ModifierNames(ws), ws.channels[i]))
  {
    TypesOver(ws.channels, ModifierNames(ws))
  }

  /** Reading one cell of `modifier_types`: for the last channel named `cn`
      and its last sample named `pn`, every modifier name maps to the type
      that sample's modifiers of that name resolve to, and the sample's
      table lists exactly the workspace's modifier names. */
  lemma ModifierTypeAt(ws: Workspace, i: nat, j: nat, mn: string)
    requires i < |ws.channels| && LastChannelNamed(ws.channels, i, ws.channels[i].name)
    requires j < |ws.channels[i].samples|
    requires LastSampleNamed(ws.channels[i].samples, j, ws.channels[i].samples[j].name)
    requires mn in ModifierNames(ws)
    ensures var c := ws.channels[i];
      var ct := Get(ModifierTypes(ws), c.name);
      && ct.Some?
      && var st := Get(ct.value, c.samples[j].name);
      && st.Some?
      && Keys(st.value) == ModifierNames(ws)
      && Get(st.value, mn) == Some(ResolveKinds(KindsNamed(c.samples[j].modifiers, mn)))
  {
    var c := ws.channels[i];
    var s := c.samples[j];
    var names := ModifierNames(ws);
    forall k | 0 <= k < |s.modifiers|
      ensures s.modifiers[k].name in names
    {
      assert s.modifiers[k] in s.modifiers;
      ModifierNamed(ws, i, j, s.modifiers[k]);
    }
    assert Get(ChannelTypes(names, c), s.name) == Some(SampleTypes(names, s));
  }

  /** The type partnering `normsys` and `histosys`. */
  function Partner(k: string): string {
    if k == "normsys" then "histosys" else if k == "histosys" then "normsys" else ""
  }

  predicate Splittable(k: string) {
    k == "normsys" || k == "histosys"
  }

  /** The length of the run at the end of `kinds` made of `normsys` and
      `histosys` alternating. */
  function AlternatingTail(kinds: seq<string>): nat {
    if |kinds| == 0 || !Splittable(kinds[|kinds| - 1]) then 0
    else if |kinds| >= 2 && kinds[|kinds| - 2] == Partner(kinds[|kinds| - 1]) then AlternatingTail(kinds[..|kinds| - 1]) + 1
    else 1
  }

  /** What a name's type comes to: `none` without modifiers; `normhisto`
      when the trailing alternating run of `normsys`/`histosys` has even
      length (each such pair merges, and a third part starts afresh);
      otherwise the last modifier's type. */
  lemma {:induction false} ResolveKindsAlternation(kinds: seq<string>)
    ensures ResolveKinds(kinds) ==
      if |kinds| == 0 then "none"
      else if AlternatingTail(kinds) > 0 && AlternatingTail(kinds) % 2 == 0 then "normhisto"
      else kinds[|kinds| - 1]
  {
    if |kinds| > 0 {
      var p := kinds[..|kinds| - 1];
      var k := kinds[|kinds| - 1];
      ResolveKindsAlternation(p);
      if |p| > 0 {
        assert p[|p| - 1] == kinds[|kinds| - 2];
        assert p[..|p| - 1] == kinds[..|kinds| - 2];
      }
    }
  }

  /** A name carried by one modifier takes that modifier's type. */
  lemma SingleKind(k: string)
    ensures ResolveKinds([k]) == k
  {
    assert [k][..0] == [];
  }

  /** A `normsys` and a `histosys` part of one name, in either order, give `normhisto`. */
  lemma SplitSystematic(a: string, b: string)
    requires (a == "normsys" && b == "histosys") || (a == "histosys" && b == "normsys")
    ensures ResolveKinds([a, b]) == "normhisto"
  {
    assert [a, b][..1] == [a];
    SingleKind(a);
  }

  /** Any type other than `normsys` and `histosys` overwrites what came before. */
  lemma LastKindWins(kinds: seq<string>, k: string)
    requires !Splittable(k)
    ensures ResolveKinds(kinds + [k]) == k
  {
    assert (kinds + [k])[..|kinds|] == kinds;
  }

  datatype NormFactorEntry = NormFactorEntry(name: string, fixed: bool)

  /** Parameter `j` is the last one named `name`. */
  predicate LastParameterNamed(params: seq<Parameter>, j: int, name: string) {
    0 <= j < |params| && params[j].name == name && forall j' :: j < j' < |params| ==> params[j'].name != name
  }

  /** The parameter loop of `normfactors`: every parameter of the name
      overwrites the flag, and only a present, true `fixed` sets it. */
  function FixedFlag(params: seq<Parameter>, name: string): (r: bool)
    ensures (forall j :: 0 <= j < |params| ==> params[j].name != name) ==> !r
    ensures forall j :: LastParameterNamed(params, j, name) ==> (r <==> params[j].fixed == Some(true))
  {
    if |params| == 0 then false
    else if params[|params| - 1].name == name then params[|params| - 1].fixed == Some(true)
    else
      var r := FixedFlag(params[..|params| - 1], name);
      assert forall j :: LastParameterNamed(params, j, name) ==> LastParameterNamed(params[..|params| - 1], j, name);
      r
  }

  /** Reference: the names of the `normfactor` modifiers, in loop order, repeats included. */
  function NormFactorNames(xs: seq<Attached>): seq<string> {
    if |xs| == 0 then []
    else NormFactorNames(xs[..|xs| - 1]) + (if Kind(xs[|xs| - 1].modifier) == "normfactor" then [xs[|xs| - 1].modifier.name] else [])
  }

  function EntryNames(es: seq<NormFactorEntry>): (ns: seq<string>)
    ensures |ns| == |es| && forall k :: 0 <= k < |es| ==> ns[k] == es[k].name
  {
    seq(|es|, k requires 0 <= k < |es| => es[k].name)
  }

  /** The loop of `normfactors`: skip other types and names already listed. */
  function CollectNormFactors(xs: seq<Attached>, params: seq<Parameter>): (r: seq<NormFactorEntry>)
    ensures EntryNames(r) == Distinct(NormFactorNames(xs))
    ensures forall k :: 0 <= k < |r| ==> r[k].fixed == FixedFlag(params, r[k].name)
  {
    if |xs| == 0 then []
    else
      var prev := CollectNormFactors(xs[..|xs| - 1], params);
      var m := xs[|xs| - 1].modifier;
      CollectStep(xs, params, prev);
      if Kind(m) != "normfactor" || m.name in EntryNames(prev) then prev
      else prev + [NormFactorEntry(m.name, FixedFlag(params, m.name))]
  }

  lemma CollectStep(xs: seq<Attached>, params: seq<Parameter>, prev: seq<NormFactorEntry>)
    requires |xs| > 0
    requires EntryNames(prev) == Distinct(NormFactorNames(xs[..|xs| - 1]))
    requires forall k :: 0 <= k < |prev| ==> prev[k].fixed == FixedFlag(params, prev[k].name)
    ensures var m := xs[|xs| - 1].modifier;
      var r := if Kind(m) != "normfactor" || m.name in EntryNames(prev) then prev
               else prev + [NormFactorEntry(m.name, FixedFlag(params, m.name))];
      && EntryNames(r) == Distinct(NormFactorNames(xs))
      && forall k :: 0 <= k < |r| ==> r[k].fixed == FixedFlag(params, r[k].name)
  {
    var m := xs[|xs| - 1].modifier;
    CollectNames(xs, prev);
    if Kind(m) == "normfactor" && m.name !in EntryNames(prev) {
      FlagAppended(prev, params, m.name);
    }
  }

  lemma CollectNames(xs: seq<Attached>, prev: seq<NormFactorEntry>)
    requires |xs| > 0
    requires EntryNames(prev) == Distinct(NormFactorNames(xs[..|xs| - 1]))
    ensures var m := xs[|xs| - 1].modifier;
      Kind(m) != "normfactor" ==> EntryNames(prev) == Distinct(NormFactorNames(xs))
    ensures var m := xs[|xs| - 1].modifier;
      Kind(m) == "normfactor" ==>
        if m.name in EntryNames(prev) then EntryNames(prev) == Distinct(NormFactorNames(xs))
        else EntryNames(prev) + [m.name] == Distinct(NormFactorNames(xs))
  {
    var m := xs[|xs| - 1].modifier;
    var names := NormFactorNames(xs[..|xs| - 1]);
    if Kind(m) == "normfactor" {
      assert NormFactorNames(xs) == names + [m.name];
      DistinctSnoc(names, m.name);
      assert m.name in EntryNames(prev) <==> m.name in names;
    } else {
      assert NormFactorNames(xs) == names;
    }
  }

  lemma FlagAppended(prev: seq<NormFactorEntry>, params: seq<Parameter>, name: string)
    requires forall k :: 0 <= k < |prev| ==> prev[k].fixed == FixedFlag(params, prev[k].name)
    ensures var r := prev + [NormFactorEntry(name, FixedFlag(params, name))];
      && EntryNames(r) == EntryNames(prev) + [name]
      && forall k :: 0 <= k < |r| ==> r[k].fixed == FixedFlag(params, r[k].name)
  {
  }

  /** `normfactors`: one entry per `normfactor` name, in first-seen order,
      fixed exactly when the last parameter of that name in the first
      measurement says `fixed: true` (a name without a parameter is listed
      as not fixed). The first measurement is read only once a
      `normfactor` is met, so it must exist then. */
  function NormFactors(ws: Workspace): (r: seq<NormFactorEntry>)
    requires NormFactorNames(AllAttachments(ws)) != [] ==> |ws.measurements| > 0
    ensures EntryNames(r) == Distinct(NormFactorNames(AllAttachments(ws)))
    ensures forall k :: 0 <= k < |r| ==> r[k].fixed == FixedFlag(ws.measurements[0].config.parameters, r[k].name)
  {
    var params := if |ws.measurements| > 0 then ws.measurements[0].config.parameters else [];
    CollectNormFactors(AllAttachments(ws), params)
  }
}

=== FILE: optional.dfy ===
/** Optional values, used where the source reads a property that may be
    `undefined` (a missing object key, an optional JSON field). */
module Optional {

  datatype Option<+T> = None | Some(value: T) {

    /** The value, or `default` when there is none. */
    function GetOr(default: T): T {
      match this
      case Some(v) => v
      case None => default
    }
  }
}

=== FILE: records.dfy ===
/** A JavaScript plain object with string keys, as the getters build them:
    an ordered list of fields whose order is the order in which the keys were
    first assigned. Assigning to an existing key replaces its value in place;
    assigning to a new key appends it. `Object.keys`, `Object.values` and
    `for ... in` all follow that order. */
module Records {
  import opened Optional
  import opened Seqs

  datatype Field<V> = Field(key: string, value: V)

  type Record<V> = seq<Field<V>>

  function Keys<V>(r: Record<V>): (ks: seq<string>)
    ensures |ks| == |r|
    ensures forall i :: 0 <= i < |r| ==> ks[i] == r[i].key
  {
    seq(|r|, i requires 0 <= i < |r| => r[i].key)
  }

  predicate UniqueKeys<V>(r: Record<V>) {
    NoDup(Keys(r))
  }

  /** `obj[k]`, or None when `k` is not a property of `obj`. */
  function Get<V>(r: Record<V>, k: string): (o: Option<V>)
    ensures o.Some? <==> k in Keys(r)
    ensures o.Some? ==> o.value == r[FirstIndex(Keys(r), k)].value
  {
    if |r| == 0 then None
    else if r[0].key == k then Some(r[0].value)
    else
      assert Keys(r) == [r[0].key] + Keys(r[1..]);
      Get(r[1..], k)
  }

  lemma KeysCons<V>(f: Field<V>, r: Record<V>)
    ensures Keys([f] + r) == [f.key] + Keys(r)
  {
  }

  /** `obj[k] = v`. */
  function Put<V>(r: Record<V>, k: string, v: V): (r': Record<V>)
    ensures Keys(r') == if k in Keys(r) then Keys(r) else Keys(r) + [k]
  {
    if |r| == 0 then [Field(k, v)]
    else if r[0].key == k then
      assert Keys([Field(k, v)] + r[1..]) == Keys(r);
      [Field(k, v)] + r[1..]
    else
      var t := Put(r[1..], k, v);
      KeysCons(r[0], r[1..]);
      KeysCons(r[0], t);
      assert r == [r[0]] + r[1..];
      [r[0]] + t
  }

  /** Reading back after `obj[k] = v`: `k` holds `v`, every other key is untouched. */
  lemma {:induction false} GetPut<V>(r: Record<V>, k: string, v: V, k': string)
    ensures Get(Put(r, k, v), k') == if k' == k then Some(v) else Get(r, k')
  {
    if |r| > 0 && r[0].key != k {
      GetPut(r[1..], k, v, k');
      assert Put(r, k, v)[1..] == Put(r[1..], k, v);
    }
  }

  /** The keys of the elements of `xs`, in order. */
  function KeysOf<T>(xs: seq<T>, key: T -> string): (ks: seq<string>)
    ensures |ks| == |xs|
    ensures forall i :: 0 <= i < |xs| ==> ks[i] == key(xs[i])
  {
    seq(|xs|, i requires 0 <= i < |xs| => key(xs[i]))
  }

  /** The loop shape shared by several getters:
        for (const x of xs) obj[key(x)] = step(obj[key(x)], x)
      starting from the object `init`. `ctx` carries what the loop body reads
      besides `x` and the current value. */
  function Accumulate<C, T, V>(init: Record<V>, xs: seq<T>, ctx: C, key: T -> string,
                               step: (C, Option<V>, T) -> V): (r: Record<V>)
    ensures UniqueKeys(init) ==> UniqueKeys(r) && Keys(r) == Distinct(Keys(init) + KeysOf(xs, key))
  {
    if |xs| == 0 then
      assert UniqueKeys(init) ==> Keys(init) + KeysOf(xs, key) == Keys(init);
      if UniqueKeys(init) then DistinctOfNoDup(Keys(init)); init else init
    else
      var acc := Accumulate(init, xs[..|xs| - 1], ctx, key, step);
      var x := xs[|xs| - 1];
      AccumulateKeysStep(init, xs, key, acc);
      Put(acc, key(x), step(ctx, Get(acc, key(x)), x))
  }

  lemma AccumulateKeysStep<T, V>(init: Record<V>, xs: seq<T>, key: T -> string, acc: Record<V>)
    requires |xs| > 0
    requires UniqueKeys(init) ==> UniqueKeys(acc) && Keys(acc) == Distinct(Keys(init) + KeysOf(xs[..|xs| - 1], key))
    ensures UniqueKeys(init) ==>
      var k := key(xs[|xs| - 1]);
      var ks := if k in Keys(acc) then Keys(acc) else Keys(acc) + [k];
      NoDup(ks) && ks == Distinct(Keys(init) + KeysOf(xs, key))
  {
    if UniqueKeys(init) {
      var k := key(xs[|xs| - 1]);
      var s := Keys(init) + KeysOf(xs[..|xs| - 1], key);
      assert KeysOf(xs, key) == KeysOf(xs[..|xs| - 1], key) + [k];
      assert Keys(init) + KeysOf(xs, key) == s + [k];
      DistinctSnoc(s, k);
      DistinctMember(s, k);
    }
  }

  /** What Accumulate leaves at the single key `k`: the loop body applied, in
      order, to the elements whose key is `k` only. */
  function FoldKey<C, T, V>(start: Option<V>, xs: seq<T>, k: string, ctx: C, key: T -> string,
                            step: (C, Option<V>, T) -> V): Option<V>
  {
    if |xs| == 0 then start
    else
      var a := FoldKey(start, xs[..|xs| - 1], k, ctx, key, step);
      if key(xs[|xs| - 1]) == k then Some(step(ctx, a, xs[|xs| - 1])) else a
  }

  /** The record built by Accumulate, read at any key, is the per-key fold. */
  lemma {:induction false} AccumulateAt<C, T, V>(init: Record<V>, xs: seq<T>, ctx: C, key: T -> string,
                                                 step: (C, Option<V>, T) -> V, k: string)
    ensures Get(Accumulate(init, xs, ctx, key, step), k) == FoldKey(Get(init, k), xs, k, ctx, key, step)
  {
    if |xs| > 0 {
      var acc := Accumulate(init, xs[..|xs| - 1], ctx, key, step);
      var x := xs[|xs| - 1];
      AccumulateAt(init, xs[..|xs| - 1], ctx, key, step, k);
      GetPut(acc, key(x), step(ctx, Get(acc, key(x)), x), k);
    }
  }

  /** When the loop body ignores the value already stored, the last element
      with key `k` decides it. */
  lemma {:induction false} FoldKeyLastWins<C, T, V>(start: Option<V>, xs: seq<T>, k: string, ctx: C,
                                                    key: T -> string, step: (C, Option<V>, T) -> V, j: nat)
    requires forall a, b, x :: step(ctx, a, x) == step(ctx, b, x)
    requires j < |xs| && key(xs[j]) == k
    requires forall i :: j < i < |xs| ==> key(xs[i]) != k
    ensures FoldKey(start, xs, k, ctx, key, step) == Some(step(ctx, start, xs[j]))
  {
    if j < |xs| - 1 {
      FoldKeyLastWins(start, xs[..|xs| - 1], k, ctx, key, step, j);
    }
  }

  /** No element with key `k`: the starting value stays. */
  lemma {:induction false} FoldKeyAbsent<C, T, V>(start: Option<V>, xs: seq<T>, k: string, ctx: C,
                                                  key: T -> string, step: (C, Option<V>, T) -> V)
    requires forall i :: 0 <= i < |xs| ==> key(xs[i]) != k
    ensures FoldKey(start, xs, k, ctx, key, step) == start
  {
    if |xs| > 0 {
      FoldKeyAbsent(start, xs[..|xs| - 1], k, ctx, key, step);
    }
  }

  /** When the loop body ignores the stored value, the last element with a
      key decides what the loop leaves under that key. */
  lemma AccumulateLastWins<C, T, V>(init: Record<V>, xs: seq<T>, ctx: C, key: T -> string,
                                    step: (C, Option<V>, T) -> V, j: nat)
    requires forall a, b, x :: step(ctx, a, x) == step(ctx, b, x)
    requires j < |xs| && forall i :: j < i < |xs| ==> key(xs[i]) != key(xs[j])
    ensures Get(Accumulate(init, xs, ctx, key, step), key(xs[j])) == Some(step(ctx, None, xs[j]))
  {
    AccumulateAt(init, xs, ctx, key, step, key(xs[j]));
    FoldKeyLastWins(Get(init, key(xs[j])), xs, key(xs[j]), ctx, key, step, j);
  }

  /** Starting from the empty object, the keys are those of the elements,
      each once, in first-seen order. */
  lemma AccumulateFresh<C, T, V>(xs: seq<T>, ctx: C, key: T -> string, step: (C, Option<V>, T) -> V)
    ensures var r := Accumulate([], xs, ctx, key, step);
      UniqueKeys(r) && Keys(r) == Distinct(KeysOf(xs, key))
  {
    assert Keys<V>([]) + KeysOf(xs, key) == KeysOf(xs, key);
  }

  /** In a record without repeated keys, each field is what its key reads. */
  lemma GetAt<V>(r: Record<V>, k: nat)
    requires UniqueKeys(r) && k < |r|
    ensures Get(r, r[k].key) == Some(r[k].value)
  {
    FirstIndexUnique(Keys(r), r[k].key, k);
  }

  /** Every field of a record built from the empty object has the key of
      some element and holds the per-key fold for that key. */
  lemma AccumulateEntry<C, T, V>(xs: seq<T>, ctx: C, key: T -> string, step: (C, Option<V>, T) -> V, k: nat)
    requires k < |Accumulate([], xs, ctx, key, step)|
    ensures var r := Accumulate([], xs, ctx, key, step);
      r[k].key in KeysOf(xs, key) && FoldKey(None, xs, r[k].key, ctx, key, step) == Some(r[k].value)
  {
    var r := Accumulate([], xs, ctx, key, step);
    AccumulateFresh(xs, ctx, key, step);
    GetAt(r, k);
    AccumulateAt([], xs, ctx, key, step, r[k].key);
    assert Keys(r)[k] == r[k].key;
  }

  /** A loop over at least one element leaves at least one field. */
  lemma AccumulateNonEmpty<C, T, V>(xs: seq<T>, ctx: C, key: T -> string, step: (C, Option<V>, T) -> V)
    requires |xs| > 0
    ensures |Accumulate([], xs, ctx, key, step)| > 0
  {
    AccumulateFresh(xs, ctx, key, step);
    assert KeysOf(xs, key)[0] in Distinct(KeysOf(xs, key));
  }

  /** The elements of `xs` whose key is `k`, in order. */
  function Where<T>(xs: seq<T>, key: T -> string, k: string): seq<T> {
    if |xs| == 0 then []
    else Where(xs[..|xs| - 1], key, k) + (if key(xs[|xs| - 1]) == k then [xs[|xs| - 1]] else [])
  }

  lemma WhereSnoc<T>(xs: seq<T>, x: T, key: T -> string, k: string)
    ensures Where(xs + [x], key, k) == Where(xs, key, k) + (if key(x) == k then [x] else [])
  {
    assert (xs + [x])[..|xs|] == xs;
  }

  /** Nothing is selected exactly when no element has the key. */
  lemma {:induction false} WhereEmpty<T>(xs: seq<T>, key: T -> string, k: string)
    ensures Where(xs, key, k) == [] <==> k !in KeysOf(xs, key)
  {
    if |xs| > 0 {
      var p := xs[..|xs| - 1];
      WhereEmpty(p, key, k);
      assert KeysOf(xs, key) == KeysOf(p, key) + [key(xs[|xs| - 1])];
    }
  }

  /** What is selected comes from `xs` and has the key. */
  lemma {:induction false} WhereElements<T>(xs: seq<T>, key: T -> string, k: string)
    ensures forall i :: 0 <= i < |Where(xs, key, k)| ==> key(Where(xs, key, k)[i]) == k && Where(xs, key, k)[i] in xs
  {
    if |xs| > 0 {
      var p := xs[..|xs| - 1];
      WhereElements(p, key, k);
      assert forall y :: y in p ==> y in xs;
    }
  }

  /** The loop body of a nested update
        obj[key(x)] ??= {}; obj[key(x)][key2(x)] = step2(obj[key(x)][key2(x)], x)
      given the inner object stored so far. */
  function Nest<C, T, V>(ctx: C, key2: T -> string, step2: (C, Option<V>, T) -> V,
                         stored: Option<Record<V>>, x: T): Record<V>
  {
    var t := stored.GetOr([]);
    Put(t, key2(x), step2(ctx, Get(t, key2(x)), x))
  }

  /** A nested update read at outer key `k` is the inner loop run, from
      an empty object, over the elements whose outer key is `k`; the outer
      key is absent exactly when no element has it. */
  lemma {:induction false} FoldKeyNest<C, T, V>(xs: seq<T>, k: string, ctx: C, key: T -> string,
                                                key2: T -> string, step2: (C, Option<V>, T) -> V,
                                                step: (C, Option<Record<V>>, T) -> Record<V>)
    requires forall s, x :: step(ctx, s, x) == Nest(ctx, key2, step2, s, x)
    ensures FoldKey(None, xs, k, ctx, key, step)
         == if k in KeysOf(xs, key) then Some(Accumulate([], Where(xs, key, k), ctx, key2, step2)) else None
  {
    if |xs| > 0 {
      var p := xs[..|xs| - 1];
      var x := xs[|xs| - 1];
      var a := FoldKey(None, p, k, ctx, key, step);
      var w := Where(p, key, k);
      FoldKeyNest(p, k, ctx, key, key2, step2, step);
      assert KeysOf(xs, key) == KeysOf(p, key) + [key(x)];
      if key(x) == k {
        assert FoldKey(None, xs, k, ctx, key, step) == Some(step(ctx, a, x));
        assert Where(xs, key, k) == w + [x];
        if k !in KeysOf(p, key) {
          WhereEmpty(p, key, k);
          assert w == [];
          assert Accumulate([], w, ctx, key2, step2) == [];
        }
        NestStep(a, w, x, ctx, key2, step2, step);
      } else {
        assert FoldKey(None, xs, k, ctx, key, step) == a;
        assert Where(xs, key, k) == w;
      }
    }
  }

  lemma NestStep<C, T, V>(a: Option<Record<V>>, w: seq<T>, x: T, ctx: C, key2: T -> string,
                          step2: (C, Option<V>, T) -> V, step: (C, Option<Record<V>>, T) -> Record<V>)
    requires forall s, x :: step(ctx, s, x) == Nest(ctx, key2, step2, s, x)
    requires a.GetOr([]) == Accumulate([], w, ctx, key2, step2)
    ensures step(ctx, a, x) == Accumulate([], w + [x], ctx, key2, step2)
  {
    assert (w + [x])[..|w|] == w;
  }
}

=== FILE: seqs.dfy ===
/** Sequence helpers shared by the aggregation getters: sums of bin
    contents, duplicate-freeness, and the first-seen de-duplication that the
    source writes as `if (names.includes(x)) continue; names.push(x)`. */
module Seqs {

  /** The sum of a vector of bin contents, `data.reduce((pv, cv) => pv + cv, 0)`. */
  function Sum(s: seq<real>): real {
    if |s| == 0 then 0.0 else s[0] + Sum(s[1..])
  }

  lemma {:induction false} SumAppend(a: seq<real>, b: seq<real>)
    ensures Sum(a + b) == Sum(a) + Sum(b)
  {
    if |a| == 0 {
      assert a + b == b;
    } else {
      assert (a + b)[1..] == a[1..] + b;
      SumAppend(a[1..], b);
    }
  }

  /** Summing `x` after the elements of `a`, as a running total does. */
  lemma SumSnoc(a: seq<real>, x: real)
    ensures Sum(a + [x]) == Sum(a) + x
  {
    SumAppend(a, [x]);
  }

  predicate NoDup<T(==)>(s: seq<T>) {
    forall i, j :: 0 <= i < j < |s| ==> s[i] != s[j]
  }

  /** `s.indexOf(x)` for an `x` that occurs in `s`. */
  function FirstIndex<T(==)>(s: seq<T>, x: T): (r: nat)
    requires x in s
    ensures r < |s| && s[r] == x
    ensures forall j :: 0 <= j < r ==> s[j] != x
  {
    if s[0] == x then 0 else 1 + FirstIndex(s[1..], x)
  }

  /** The first index is determined by the two properties FirstIndex promises. */
  lemma {:induction false} FirstIndexUnique<T>(s: seq<T>, x: T, k: nat)
    requires k < |s| && s[k] == x
    requires forall j :: 0 <= j < k ==> s[j] != x
    ensures FirstIndex(s, x) == k
  {
    if k > 0 {
      assert s[1..][k - 1] == x;
      assert forall j :: 0 <= j < k - 1 ==> s[1..][j] == s[j + 1];
      FirstIndexUnique(s[1..], x, k - 1);
    }
  }

  /** An element met before position `n` has the same first index in the prefix. */
  lemma FirstIndexPrefix<T>(s: seq<T>, n: nat, x: T)
    requires n <= |s| && x in s[..n]
    ensures FirstIndex(s, x) == FirstIndex(s[..n], x)
  {
    var k := FirstIndex(s[..n], x);
    assert s[k] == x;
    assert forall j :: 0 <= j < k ==> s[j] == s[..n][j];
    FirstIndexUnique(s, x, k);
  }

  /** The distinct elements of `s`, each at the position where it is first
      seen (DistinctOrder). */
  function Distinct<T(==)>(s: seq<T>): (r: seq<T>)
    ensures NoDup(r)
    ensures forall i :: 0 <= i < |r| ==> r[i] in s
    ensures forall i :: 0 <= i < |s| ==> s[i] in r
  {
    if |s| == 0 then []
    else
      var d := Distinct(s[..|s| - 1]);
      DistinctStep(s, d);
      if s[|s| - 1] in d then d else d + [s[|s| - 1]]
  }

  /** The step of Distinct: appending the last element of `s` when it is new. */
  lemma DistinctStep<T>(s: seq<T>, d: seq<T>)
    requires |s| > 0
    requires NoDup(d)
    requires forall i :: 0 <= i < |d| ==> d[i] in s[..|s| - 1]
    requires forall i :: 0 <= i < |s| - 1 ==> s[i] in d
    ensures var r := if s[|s| - 1] in d then d else d + [s[|s| - 1]];
      && NoDup(r)
      && (forall i :: 0 <= i < |r| ==> r[i] in s)
      && (forall i :: 0 <= i < |s| ==> s[i] in r)
  {
    var n := |s| - 1;
    assert s == s[..n] + [s[n]];
    forall i | 0 <= i < n
      ensures s[i] == s[..n][i]
    {
    }
  }

  /** Distinct keeps first-seen order: an element listed earlier was first
      met earlier. */
  lemma {:induction false} DistinctOrder<T>(s: seq<T>)
    ensures forall i, j :: 0 <= i < j < |Distinct(s)| ==>
      FirstIndex(s, Distinct(s)[i]) < FirstIndex(s, Distinct(s)[j])
  {
    if |s| > 0 {
      var n := |s| - 1;
      var p := s[..n];
      var x := s[n];
      var d := Distinct(p);
      DistinctOrder(p);
      forall i | 0 <= i < |d|
        ensures FirstIndex(s, d[i]) == FirstIndex(p, d[i]) && FirstIndex(p, d[i]) < n
      {
        FirstIndexPrefix(s, n, d[i]);
      }
      if x !in d {
        assert x !in p;
        FirstIndexUnique(s, x, n);
        var r := d + [x];
        assert Distinct(s) == r;
        forall i, j | 0 <= i < j < |r|
          ensures FirstIndex(s, r[i]) < FirstIndex(s, r[j])
        {
          assert r[i] == d[i];
          if j < |d| {
            assert r[j] == d[j];
          }
        }
      } else {
        assert Distinct(s) == d;
      }
    }
  }

  lemma DistinctMember<T>(s: seq<T>, x: T)
    ensures x in Distinct(s) <==> x in s
  {
    if x in s {
      var i :| 0 <= i < |s| && s[i] == x;
    }
  }

  lemma DistinctSnoc<T>(s: seq<T>, x: T)
    ensures Distinct(s + [x]) == if x in s then Distinct(s) else Distinct(s) + [x]
  {
    assert (s + [x])[..|s|] == s;
  }

  /** A duplicate-free sequence is its own de-duplication. */
  lemma {:induction false} DistinctOfNoDup<T>(s: seq<T>)
    requires NoDup(s)
    ensures Distinct(s) == s
  {
    if |s| > 0 {
      var p := s[..|s| - 1];
      assert s == p + [s[|s| - 1]];
      DistinctOfNoDup(p);
      DistinctSnoc(p, s[|s| - 1]);
    }
  }

  /** Appending elements that already occur changes nothing. */
  lemma {:induction false} DistinctAbsorbs<T>(s: seq<T>, t: seq<T>)
    requires NoDup(s)
    requires forall i :: 0 <= i < |t| ==> t[i] in s
    ensures Distinct(s + t) == s
  {
    if |t| == 0 {
      assert s + t == s;
      DistinctOfNoDup(s);
    } else {
      var p := t[..|t| - 1];
      var x := t[|t| - 1];
      assert s + t == (s + p) + [x] by {
        assert t == p + [x];
      }
      assert forall i :: 0 <= i < |p| ==> p[i] in s by {
        forall i | 0 <= i < |p|
          ensures p[i] in s
        {
          assert p[i] == t[i];
        }
      }
      assert x in s;
      DistinctAbsorbs(s, p);
      DistinctAbsorbsStep(s, p, x);
    }
  }

  lemma DistinctAbsorbsStep<T>(s: seq<T>, p: seq<T>, x: T)
    requires Distinct(s + p) == s
    requires x in s
    ensures Distinct(s + p + [x]) == s
  {
    assert x in s + p by {
      var i :| 0 <= i < |s| && s[i] == x;
      assert (s + p)[i] == x;
    }
    DistinctSnoc(s + p, x);
  }
}

=== FILE: sorting.dfy ===
/** The sort behind `process_names`: `items.sort((a, b) => b[1] - a[1])`
    over `[name, yield]` pairs. The comparator orders by yield, largest
    first, and `Array.prototype.sort` is stable, so pairs with equal yields
    keep their relative order. Modelled as a stable insertion sort over the
    fields of a record. */
module Sorting {
  import opened Records

  /** Non-increasing by value. */
  predicate SortedDesc(s: Record<real>) {
    forall i, j :: 0 <= i < j < |s| ==> s[i].value >= s[j].value
  }

  /** The fields of `s` whose value is `v`, in order. A sort is stable
      exactly when it leaves each of these subsequences unchanged. */
  function WithValue(s: Record<real>, v: real): Record<real> {
    if |s| == 0 then []
    else (if s[0].value == v then [s[0]] else []) + WithValue(s[1..], v)
  }

  lemma {:induction false} WithValueAppend(a: Record<real>, b: Record<real>, v: real)
    ensures WithValue(a + b, v) == WithValue(a, v) + WithValue(b, v)
  {
    if |a| == 0 {
      assert a + b == b;
    } else {
      assert (a + b)[1..] == a[1..] + b;
      WithValueAppend(a[1..], b, v);
    }
  }

  lemma {:induction false} WithValueNone(s: Record<real>, v: real)
    requires forall i :: 0 <= i < |s| ==> s[i].value != v
    ensures WithValue(s, v) == []
  {
    if |s| > 0 {
      WithValueNone(s[1..], v);
    }
  }

  /** Inserts `x` after every field whose value is at least `x.value`. */
  function Insert(s: Record<real>, x: Field<real>): (r: Record<real>)
    ensures multiset(r) == multiset(s) + multiset{x}
    ensures multiset(Keys(r)) == multiset(Keys(s)) + multiset{x.key}
    ensures SortedDesc(s) ==> SortedDesc(r)
    ensures SortedDesc(s) ==> forall v :: WithValue(r, v) == WithValue(s, v) + (if x.value == v then [x] else [])
  {
    if |s| == 0 then [x]
    else if s[0].value >= x.value then
      var t := Insert(s[1..], x);
      InsertHeadCounts(s, x, t);
      InsertHeadSorted(s, x, t);
      InsertHeadStable(s, x, t);
      [s[0]] + t
    else
      InsertFront(s, x);
      [x] + s
  }

  lemma InsertHeadCounts(s: Record<real>, x: Field<real>, t: Record<real>)
    requires |s| > 0
    requires multiset(t) == multiset(s[1..]) + multiset{x}
    requires multiset(Keys(t)) == multiset(Keys(s[1..])) + multiset{x.key}
    ensures multiset([s[0]] + t) == multiset(s) + multiset{x}
    ensures multiset(Keys([s[0]] + t)) == multiset(Keys(s)) + multiset{x.key}
  {
    assert s == [s[0]] + s[1..];
    KeysCons(s[0], t);
    KeysCons(s[0], s[1..]);
  }

  lemma InsertHeadSorted(s: Record<real>, x: Field<real>, t: Record<real>)
    requires |s| > 0 && s[0].value >= x.value
    requires multiset(t) == multiset(s[1..]) + multiset{x}
    requires SortedDesc(s[1..]) ==> SortedDesc(t)
    ensures SortedDesc(s) ==> SortedDesc([s[0]] + t)
  {
    if SortedDesc(s) {
      assert SortedDesc(s[1..]);
      var r := [s[0]] + t;
      forall j | 0 < j < |r|
        ensures r[0].value >= r[j].value
      {
        assert r[j] == t[j - 1];
        assert t[j - 1] in multiset(t);
        if t[j - 1] != x {
          assert t[j - 1] in multiset(s[1..]);
          var i :| 0 <= i < |s[1..]| && s[1..][i] == t[j - 1];
          assert s[i + 1] == t[j - 1];
        }
      }
    }
  }

  lemma InsertHeadStable(s: Record<real>, x: Field<real>, t: Record<real>)
    requires |s| > 0
    requires SortedDesc(s[1..]) ==> forall v :: WithValue(t, v) == WithValue(s[1..], v) + (if x.value == v then [x] else [])
    ensures SortedDesc(s) ==> forall v :: WithValue([s[0]] + t, v) == WithValue(s, v) + (if x.value == v then [x] else [])
  {
    if SortedDesc(s) {
      assert SortedDesc(s[1..]);
      forall v
        ensures WithValue([s[0]] + t, v) == WithValue(s, v) + (if x.value == v then [x] else [])
      {
        assert ([s[0]] + t)[1..] == t;
      }
    }
  }

  lemma InsertFront(s: Record<real>, x: Field<real>)
    requires |s| > 0 && s[0].value < x.value
    ensures var r := [x] + s;
      && multiset(Keys(r)) == multiset(Keys(s)) + multiset{x.key}
      && (SortedDesc(s) ==> SortedDesc(r))
      && (SortedDesc(s) ==> forall v :: WithValue(r, v) == WithValue(s, v) + (if x.value == v then [x] else []))
  {
    KeysCons(x, s);
    if SortedDesc(s) {
      FrontSorted(s, x);
      FrontStable(s, x);
    }
  }

  lemma FrontSorted(s: Record<real>, x: Field<real>)
    requires |s| > 0 && s[0].value < x.value && SortedDesc(s)
    ensures SortedDesc([x] + s)
  {
    var r := [x] + s;
    forall i, j | 0 <= i < j < |r|
      ensures r[i].value >= r[j].value
    {
      assert r[j] == s[j - 1];
      if i > 0 {
        assert r[i] == s[i - 1];
      } else {
        assert s[0].value >= s[j - 1].value;
      }
    }
  }

  lemma FrontStable(s: Record<real>, x: Field<real>)
    requires |s| > 0 && s[0].value < x.value && SortedDesc(s)
    ensures forall v :: WithValue([x] + s, v) == WithValue(s, v) + (if x.value == v then [x] else [])
  {
    var r := [x] + s;
    assert r[1..] == s;
    assert forall i :: 0 <= i < |s| ==> s[i].value != x.value by {
      forall i | 0 <= i < |s|
        ensures s[i].value != x.value
      {
        assert s[0].value >= s[i].value;
      }
    }
    WithValueNone(s, x.value);
    forall v
      ensures WithValue(r, v) == WithValue(s, v) + (if x.value == v then [x] else [])
    {
      if x.value == v {
        assert WithValue(r, v) == [x] + WithValue(s, v);
      } else {
        assert WithValue(r, v) == WithValue(s, v);
      }
    }
  }

  /** Stable sort by value, largest first. */
  function SortDesc(s: Record<real>): (r: Record<real>)
    ensures multiset(r) == multiset(s)
    ensures multiset(Keys(r)) == multiset(Keys(s))
    ensures SortedDesc(r)
    ensures forall v :: WithValue(r, v) == WithValue(s, v)
  {
    if |s| == 0 then []
    else
      var p := s[..|s| - 1];
      var x := s[|s| - 1];
      assert s == p + [x];
      assert Keys(s) == Keys(p) + [x.key];
      assert forall v :: WithValue(s, v) == WithValue(p, v) + (if x.value == v then [x] else []) by {
        forall v
          ensures WithValue(s, v) == WithValue(p, v) + (if x.value == v then [x] else [])
        {
          WithValueAppend(p, [x], v);
          assert [x][1..] == [];
        }
      }
      Insert(SortDesc(p), x)
  }
}

=== FILE: stacks.dfy ===
/** Stacked yields: `stacked_data`, `normalized_stacked_data` and
    `stacked_data_per_bin` of the workspace store. Every stack has one slot
    per entry of `process_names`, in that order, so slots line up across
    channels; a process missing from a channel gets a zero-height slot. */
module Stacks {
  import opened Seqs
  import opened HistFactory
  import opened Yields

  datatype StackedProcess = StackedProcess(name: string, low: real, high: real)

  datatype StackedChannel = StackedChannel(name: string, processes: seq<StackedProcess>)

  /** One stack per bin, plus the channel's observed data for the overlay. */
  datatype BinwiseChannel = BinwiseChannel(name: string, content: seq<seq<StackedProcess>>, data: seq<real>)

  /** Slots sit on top of each other, the first one on `base`. */
  predicate StackedOn(ps: seq<StackedProcess>, base: real) {
    && (|ps| > 0 ==> ps[0].low == base)
    && forall k :: 0 <= k < |ps| - 1 ==> ps[k + 1].low == ps[k].high
  }

  /** The height the stack reaches: the last slot's `high`, or `base` if empty. */
  function Top(ps: seq<StackedProcess>, base: real): real {
    if |ps| == 0 then base else ps[|ps| - 1].high
  }

  /** The stacking loop: `low = previous_high; high = previous_high + height;
      previous_high = high`, starting from `base`. */
  function StackFrom(base: real, names: seq<string>, heights: seq<real>): (r: seq<StackedProcess>)
    requires |names| == |heights|
    ensures |r| == |names|
    ensures StackedOn(r, base)
    ensures forall k :: 0 <= k < |r| ==> r[k].name == names[k] && r[k].high - r[k].low == heights[k]
    ensures Top(r, base) == base + Sum(heights)
    decreases |names|
  {
    if |names| == 0 then []
    else
      var slot := StackedProcess(names[0], base, base + heights[0]);
      var rest := StackFrom(base + heights[0], names[1..], heights[1..]);
      [slot] + rest
  }

  /** A stack over `names` from 0. */
  function Stack(names: seq<string>, heights: seq<real>): (r: seq<StackedProcess>)
    requires |names| == |heights|
    ensures |r| == |names| && StackedOn(r, 0.0)
    ensures forall k :: 0 <= k < |r| ==> r[k].name == names[k] && r[k].high - r[k].low == heights[k]
    ensures Top(r, 0.0) == Sum(heights)
  {
    StackFrom(0.0, names, heights)
  }

  /** The yield of each process of `names` in the channel named `cn`. */
  function ChannelHeights(ws: Workspace, cn: string, names: seq<string>): (h: seq<real>)
    ensures |h| == |names|
    ensures forall k :: 0 <= k < |names| ==> h[k] == YieldInChannel(ws, cn, names[k])
  {
    seq(|names|, k requires 0 <= k < |names| => YieldInChannel(ws, cn, names[k]))
  }

  /** One channel of `stacked_data`. */
  function ChannelStack(ws: Workspace, cn: string, names: seq<string>): (r: StackedChannel)
    ensures r.name == cn && |r.processes| == |names| && StackedOn(r.processes, 0.0)
    ensures forall k :: 0 <= k < |names| ==>
      r.processes[k].name == names[k] && r.processes[k].high - r.processes[k].low == YieldInChannel(ws, cn, names[k])
  {
    StackedChannel(cn, Stack(names, ChannelHeights(ws, cn, names)))
  }

  /** `r` holds, per channel, a stack from 0 with one slot per entry of
      `names`, each as tall as that process's yield in the channel's name. */
  predicate StacksChannels(ws: Workspace, r: seq<StackedChannel>, names: seq<string>) {
    && |r| == |ws.channels|
    && (forall i :: 0 <= i < |r| ==>
          && r[i].name == ws.channels[i].name
          && |r[i].processes| == |names|
          && StackedOn(r[i].processes, 0.0))
    && (forall i, k :: 0 <= i < |r| && 0 <= k < |r[i].processes| && k < |names| ==>
          && r[i].processes[k].name == names[k]
          && r[i].processes[k].high - r[i].processes[k].low == YieldInChannel(ws, ws.channels[i].name, names[k]))
  }

  /** The loop of `stacked_data` for a given process order. */
  function StackedChannels(ws: Workspace, names: seq<string>): (r: seq<StackedChannel>)
    ensures StacksChannels(ws, r, names)
  {
    seq(|ws.channels|, i requires 0 <= i < |ws.channels| => ChannelStack(ws, ws.channels[i].name, names))
  }

  /** `stacked_data`: per channel, one slot per process in `process_names`
      order, stacked from 0, each as tall as `yield_of_process_in_channel`
      for that channel's name. */
  function StackedData(ws: Workspace): (r: seq<StackedChannel>)
    ensures StacksChannels(ws, r, ProcessNames(ws))
  {
    StackedChannels(ws, ProcessNames(ws))
  }

  /** No sample named `pn` in any channel named `cn`: the yield is 0. */
  lemma AbsentYield(ws: Workspace, cn: string, pn: string)
    requires forall j, m :: 0 <= j < |ws.channels| && ws.channels[j].name == cn && 0 <= m < |ws.channels[j].samples| ==>
      ws.channels[j].samples[m].name != pn
    ensures YieldInChannel(ws, cn, pn) == 0.0
  {
    var channelNames := seq(|ws.channels|, j requires 0 <= j < |ws.channels| => ws.channels[j].name);
    assert forall j :: 0 <= j < |ws.channels| ==> channelNames[j] == ws.channels[j].name;
    if cn in channelNames {
      var f := FirstIndex(channelNames, cn);
      assert FirstChannelNamed(ws.channels, f, cn);
    }
  }

  /** A process missing from every channel that shares channel `i`'s name
      gets a zero-height slot there. */
  lemma AbsentProcessHasEmptySlot(ws: Workspace, i: nat, k: nat)
    requires i < |ws.channels| && k < |ProcessNames(ws)|
    requires forall j, m :: 0 <= j < |ws.channels| && ws.channels[j].name == ws.channels[i].name && 0 <= m < |ws.channels[j].samples| ==>
      ws.channels[j].samples[m].name != ProcessNames(ws)[k]
    ensures var slot := StackedData(ws)[i].processes[k]; slot.low == slot.high
  {
    var names := ProcessNames(ws);
    AbsentYield(ws, ws.channels[i].name, names[k]);
    var r := StackedData(ws);
    assert StacksChannels(ws, r, names);
  }

  /** The channel total as `normalized_stacked_data` computes it: the sum of
      the slot heights `high - low`. */
  function Span(ps: seq<StackedProcess>): real {
    if |ps| == 0 then 0.0 else (ps[0].high - ps[0].low) + Span(ps[1..])
  }

  /** The heights of a contiguous stack telescope to its top. */
  lemma {:induction false} SpanTelescopes(ps: seq<StackedProcess>, base: real)
    requires StackedOn(ps, base)
    ensures Span(ps) == Top(ps, base) - base
  {
    if |ps| > 0 {
      assert StackedOn(ps[1..], ps[0].high);
      SpanTelescopes(ps[1..], ps[0].high);
    }
  }

  /** Rescales one slot by the channel total, to percent. */
  function Rescale(p: StackedProcess, total: real): StackedProcess
    requires total != 0.0
  {
    StackedProcess(p.name, p.low / total * 100.0, p.high / total * 100.0)
  }

  /** One channel of `normalized_stacked_data`: every `low` and `high`
      divided by the channel total and multiplied by 100. A stack that
      started at 0 still does, and now tops out at exactly 100; every slot's
      height becomes its percentage share of the total. */
  function NormalizeChannel(c: StackedChannel): (r: StackedChannel)
    requires c.processes != [] ==> Span(c.processes) != 0.0
    ensures r.name == c.name && |r.processes| == |c.processes|
    ensures forall k :: 0 <= k < |r.processes| ==>
      var p := c.processes[k];
      r.processes[k].name == p.name && r.processes[k].high - r.processes[k].low == (p.high - p.low) / Span(c.processes) * 100.0
    ensures StackedOn(c.processes, 0.0) && c.processes != [] ==>
      StackedOn(r.processes, 0.0) && Top(r.processes, 0.0) == 100.0
  {
    if c.processes == [] then c
    else
      var total := Span(c.processes);
      var ps := seq(|c.processes|, k requires 0 <= k < |c.processes| => Rescale(c.processes[k], total));
      NormalizeFacts(c.processes, total, ps);
      StackedChannel(c.name, ps)
  }

  lemma NormalizeFacts(cs: seq<StackedProcess>, total: real, ps: seq<StackedProcess>)
    requires cs != [] && total == Span(cs) && total != 0.0
    requires |ps| == |cs| && forall k :: 0 <= k < |cs| ==> ps[k] == Rescale(cs[k], total)
    ensures forall k :: 0 <= k < |ps| ==> ps[k].high - ps[k].low == (cs[k].high - cs[k].low) / total * 100.0
    ensures StackedOn(cs, 0.0) ==> StackedOn(ps, 0.0) && Top(ps, 0.0) == 100.0
  {
    forall k | 0 <= k < |ps|
      ensures ps[k].high - ps[k].low == (cs[k].high - cs[k].low) / total * 100.0
    {
      PercentOfDifference(cs[k].high, cs[k].low, total);
    }
    if StackedOn(cs, 0.0) {
      SpanTelescopes(cs, 0.0);
      assert cs[|cs| - 1].high == total;
      PercentOfWhole(total);
      assert ps[|ps| - 1].high == 100.0;
      PercentOfZero(total);
      assert ps[0].low == 0.0;
      forall k | 0 <= k < |ps| - 1
        ensures ps[k + 1].low == ps[k].high
      {
        assert cs[k + 1].low == cs[k].high;
      }
    }
  }

  lemma PercentOfDifference(x: real, y: real, t: real)
    requires t != 0.0
    ensures x / t * 100.0 - y / t * 100.0 == (x - y) / t * 100.0
  {
  }

  lemma PercentOfWhole(t: real)
    requires t != 0.0
    ensures t / t * 100.0 == 100.0
  {
  }

  lemma PercentOfZero(t: real)
    requires t != 0.0
    ensures 0.0 / t * 100.0 == 0.0
  {
  }

  /** Every channel of `stacked_data` that has slots has a nonzero total.
      The source does not guard against a zero total (it would produce NaN
      or Infinity). */
  predicate NonZeroTotals(ws: Workspace) {
    forall i :: 0 <= i < |StackedData(ws)| ==>
      StackedData(ws)[i].processes != [] ==> Span(StackedData(ws)[i].processes) != 0.0
  }

  /** `r` holds, per channel, one slot per entry of `names`, each as tall
      as that process's yield in the channel's name as a percentage of the
      channel total `totals[i]`. */
  predicate PercentSlots(ws: Workspace, r: seq<StackedChannel>, names: seq<string>, totals: seq<real>) {
    forall i, k :: 0 <= i < |r| && 0 <= k < |r[i].processes| && k < |names| && i < |ws.channels| && i < |totals| ==>
      && r[i].processes[k].name == names[k]
      && (totals[i] != 0.0 ==>
            r[i].processes[k].high - r[i].processes[k].low
              == YieldInChannel(ws, ws.channels[i].name, names[k]) / totals[i] * 100.0)
  }

  /** The channel totals `normalized_stacked_data` divides by: the summed
      slot heights of each channel of `stacked_data`. */
  function ChannelTotals(ws: Workspace): (t: seq<real>)
    ensures |t| == |StackedData(ws)| && forall i :: 0 <= i < |t| ==> t[i] == Span(StackedData(ws)[i].processes)
  {
    Spans(StackedData(ws))
  }

  /** The summed slot heights of each channel. */
  function Spans(cs: seq<StackedChannel>): (t: seq<real>)
    ensures |t| == |cs| && forall i :: 0 <= i < |t| ==> t[i] == Span(cs[i].processes)
  {
    seq(|cs|, i requires 0 <= i < |cs| => Span(cs[i].processes))
  }

  /** `normalized_stacked_data`: the channels and slots of `stacked_data`,
      each slot as tall as its process's yield as a percentage of the
      channel total, and each nonempty stack rescaled to run from 0 to
      exactly 100. */
  function NormalizedStackedData(ws: Workspace): (r: seq<StackedChannel>)
    requires NonZeroTotals(ws)
    ensures var names := ProcessNames(ws);
      && |r| == |ws.channels|
      && forall i :: 0 <= i < |r| ==>
           && r[i].name == ws.channels[i].name
           && |r[i].processes| == |names|
           && (r[i].processes != [] ==> StackedOn(r[i].processes, 0.0) && Top(r[i].processes, 0.0) == 100.0)
    ensures PercentSlots(ws, r, ProcessNames(ws), ChannelTotals(ws))
  {
    var r := NormalizeAll(StackedData(ws));
    NormalizedFacts(ws, r);
    NormalizedSlots(ws, r);
    r
  }

  /** Every channel of `cs` normalised. */
  function NormalizeAll(cs: seq<StackedChannel>): (r: seq<StackedChannel>)
    requires forall i :: 0 <= i < |cs| ==> cs[i].processes != [] ==> Span(cs[i].processes) != 0.0
    ensures |r| == |cs| && forall i :: 0 <= i < |cs| ==> r[i] == NormalizeChannel(cs[i])
  {
    seq(|cs|, i requires 0 <= i < |cs| => NormalizeChannel(cs[i]))
  }

  lemma NormalizedFacts(ws: Workspace, r: seq<StackedChannel>)
    requires NonZeroTotals(ws)
    requires |r| == |StackedData(ws)| && forall i :: 0 <= i < |r| ==> r[i] == NormalizeChannel(StackedData(ws)[i])
    ensures var names := ProcessNames(ws);
      && |r| == |ws.channels|
      && forall i :: 0 <= i < |r| ==>
           && r[i].name == ws.channels[i].name
           && |r[i].processes| == |names|
           && (r[i].processes != [] ==> StackedOn(r[i].processes, 0.0) && Top(r[i].processes, 0.0) == 100.0)
  {
    var names := ProcessNames(ws);
    var stacked := StackedData(ws);
    assert StacksChannels(ws, stacked, names);
    forall i | 0 <= i < |r|
      ensures r[i].name == ws.channels[i].name && |r[i].processes| == |names|
      ensures r[i].processes != [] ==> StackedOn(r[i].processes, 0.0) && Top(r[i].processes, 0.0) == 100.0
    {
      assert stacked[i].name == ws.channels[i].name && |stacked[i].processes| == |names|;
      assert StackedOn(stacked[i].processes, 0.0);
    }
  }

  lemma NormalizedSlots(ws: Workspace, r: seq<StackedChannel>)
    requires NonZeroTotals(ws)
    requires |r| == |StackedData(ws)| && forall i :: 0 <= i < |r| ==> r[i] == NormalizeChannel(StackedData(ws)[i])
    ensures PercentSlots(ws, r, ProcessNames(ws), ChannelTotals(ws))
  {
    var stacked := StackedData(ws);
    SlotsRescaled(ws, stacked, ProcessNames(ws), ChannelTotals(ws), r);
  }

  /** Rescaling every channel of a stack of yields gives their percentages. */
  lemma SlotsRescaled(ws: Workspace, stacked: seq<StackedChannel>, names: seq<string>, totals: seq<real>, r: seq<StackedChannel>)
    requires StacksChannels(ws, stacked, names)
    requires |totals| == |stacked| && forall i :: 0 <= i < |totals| ==> totals[i] == Span(stacked[i].processes)
    requires forall i :: 0 <= i < |stacked| ==> stacked[i].processes != [] ==> Span(stacked[i].processes) != 0.0
    requires |r| == |stacked| && forall i :: 0 <= i < |r| ==> r[i] == NormalizeChannel(stacked[i])
    ensures PercentSlots(ws, r, names, totals)
  {
    forall i, k | 0 <= i < |r| && 0 <= k < |r[i].processes| && k < |names| && i < |ws.channels| && i < |totals|
      ensures r[i].processes[k].name == names[k]
      ensures totals[i] != 0.0 ==>
        r[i].processes[k].high - r[i].processes[k].low == YieldInChannel(ws, ws.channels[i].name, names[k]) / totals[i] * 100.0
    {
      assert |stacked[i].processes| == |names|;
      var y := YieldInChannel(ws, ws.channels[i].name, names[k]);
      assert stacked[i].processes[k].name == names[k] && stacked[i].processes[k].high - stacked[i].processes[k].low == y;
      SlotRescaled(stacked[i], r[i], k, y);
    }
  }

  /** One slot of height `y`, rescaled: its height becomes `y` as a
      percentage of the channel total. */
  lemma SlotRescaled(c: StackedChannel, rc: StackedChannel, k: nat, y: real)
    requires c.processes != [] ==> Span(c.processes) != 0.0
    requires rc == NormalizeChannel(c) && k < |c.processes|
    requires c.processes[k].high - c.processes[k].low == y
    ensures rc.processes[k].name == c.processes[k].name
    ensures rc.processes[k].high - rc.processes[k].low == y / Span(c.processes) * 100.0
  {
  }

  /** Sample `j` is the first one named `pn` (what `indexOf` finds). */
  predicate FirstSampleNamed(ss: seq<Sample>, j: int, pn: string) {
    0 <= j < |ss| && ss[j].name == pn && forall j' :: 0 <= j' < j ==> ss[j'].name != pn
  }

  /** `samples.map(e => e.name).indexOf(pn)`: -1 when no sample is named `pn`. */
  function IndexOfSample(ss: seq<Sample>, pn: string): (r: int)
    ensures r == -1 <==> forall j :: 0 <= j < |ss| ==> ss[j].name != pn
    ensures r != -1 ==> FirstSampleNamed(ss, r, pn)
  {
    if |ss| == 0 then -1
    else if ss[0].name == pn then 0
    else
      var r := IndexOfSample(ss[1..], pn);
      if r == -1 then -1 else r + 1
  }

  /** Every sample the per-bin loop reads (the first of each name) has at
      least as many bins as the channel's first sample, so no bin read is
      `undefined`. */
  predicate BinsReadable(c: Channel) {
    && |c.samples| > 0
    && forall j :: 0 <= j < |c.samples| && FirstSampleNamed(c.samples, j, c.samples[j].name) ==>
         |c.samples[j].data| >= |c.samples[0].data|
  }

  /** The height of process `pn` in bin `b`: bin `b` of the first sample
      named `pn`, or 0 when the channel has no such sample. */
  function BinHeight(c: Channel, pn: string, b: nat): (h: real)
    requires BinsReadable(c) && b < |c.samples[0].data|
    ensures (forall j :: 0 <= j < |c.samples| ==> c.samples[j].name != pn) ==> h == 0.0
    ensures forall j :: FirstSampleNamed(c.samples, j, pn) ==> h == c.samples[j].data[b]
  {
    var index := IndexOfSample(c.samples, pn);
    if index == -1 then 0.0
    else
      assert FirstSampleNamed(c.samples, index, c.samples[index].name);
      c.samples[index].data[b]
  }

  function BinHeights(c: Channel, names: seq<string>, b: nat): (h: seq<real>)
    requires BinsReadable(c) && b < |c.samples[0].data|
    ensures |h| == |names|
    ensures forall k :: 0 <= k < |names| ==> h[k] == BinHeight(c, names[k], b)
  {
    seq(|names|, k requires 0 <= k < |names| => BinHeight(c, names[k], b))
  }

  /** One channel of `stacked_data_per_bin`, with its observation. */
  function BinwiseStack(c: Channel, observation: Observation, names: seq<string>): (r: BinwiseChannel)
    requires BinsReadable(c)
    ensures r.name == c.name && r.data == observation.data
    ensures |r.content| == |c.samples[0].data|
    ensures forall b :: 0 <= b < |r.content| ==>
      var ps := r.content[b];
      && |ps| == |names|
      && StackedOn(ps, 0.0)
      && (forall k :: 0 <= k < |ps| ==> ps[k].name == names[k] && ps[k].high - ps[k].low == BinHeight(c, names[k], b))
      && Top(ps, 0.0) == Sum(BinHeights(c, names, b))
  {
    var bins := |c.samples[0].data|;
    BinwiseChannel(c.name,
      seq(bins, b requires 0 <= b < bins => Stack(names, BinHeights(c, names, b))),
      observation.data)
  }

  /** What `stacked_data_per_bin` reads without hitting `undefined`: an
      observation for every channel, and a first sample in every channel
      whose bin count the other samples cover. */
  predicate PerBinReadable(ws: Workspace) {
    && |ws.observations| >= |ws.channels|
    && forall i :: 0 <= i < |ws.channels| ==> BinsReadable(ws.channels[i])
  }

  /** `r` holds, per channel, one stack per bin of the first sample over
      `names`, with slot heights read from that bin, and the channel's
      observation at the same position. */
  predicate StacksBins(ws: Workspace, r: seq<BinwiseChannel>, names: seq<string>)
    requires PerBinReadable(ws)
  {
    && |r| == |ws.channels|
    && (forall i :: 0 <= i < |r| ==>
          && r[i].name == ws.channels[i].name
          && r[i].data == ws.observations[i].data
          && |r[i].content| == |ws.channels[i].samples[0].data|)
    && (forall i, b :: 0 <= i < |r| && 0 <= b < |r[i].content| && b < |ws.channels[i].samples[0].data| ==>
          var ps := r[i].content[b];
          && |ps| == |names|
          && StackedOn(ps, 0.0)
          && (forall k :: 0 <= k < |ps| && k < |names| ==>
                ps[k].name == names[k] && ps[k].high - ps[k].low == BinHeight(ws.channels[i], names[k], b))
          && Top(ps, 0.0) == Sum(BinHeights(ws.channels[i], names, b)))
  }

  /** The loop of `stacked_data_per_bin` for a given process order. */
  function BinwiseStacks(ws: Workspace, names: seq<string>): (r: seq<BinwiseChannel>)
    requires PerBinReadable(ws)
    ensures StacksBins(ws, r, names)
  {
    seq(|ws.channels|, i requires 0 <= i < |ws.channels| && PerBinReadable(ws) =>
      BinwiseStack(ws.channels[i], ws.observations[i], names))
  }

  /** `stacked_data_per_bin`: for channel `i`, one stack per bin of its first
      sample, over `process_names`, each slot as tall as that bin of the
      first sample bearing the process name (0 if none); `data` is the
      observation at the same position. */
  function StackedDataPerBin(ws: Workspace): (r: seq<BinwiseChannel>)
    requires PerBinReadable(ws)
    ensures StacksBins(ws, r, ProcessNames(ws))
  {
    BinwiseStacks(ws, ProcessNames(ws))
  }
}

=== FILE: storeid.dfy ===
/** The store-id store: the allocator that hands out one small integer id
    per loaded workspace and recycles the ids of removed ones, and the
    selection of HistFactory workspaces from a HEPData record. */
module StoreId {
  import opened Optional
  import opened Seqs

  /** The allocator's two lists: the ids in use, and the freed ids in the
      order they were freed. */
  datatype Allocator = Allocator(ids: seq<int>, freeIds: seq<int>)

  /** The result of `add_store_with_id`: the new state and the id handed out. */
  datatype Added = Added(state: Allocator, id: int)

  /** The initial state. */
  const Initial := Allocator([], [])

  /** `Math.max(...xs)` of a nonempty list. */
  function Max(xs: seq<int>): (m: int)
    requires |xs| > 0
    ensures m in xs && forall i :: 0 <= i < |xs| ==> xs[i] <= m
  {
    if |xs| == 1 then xs[0]
    else
      var m := Max(xs[1..]);
      assert forall i :: 1 <= i < |xs| ==> xs[i] == xs[1..][i - 1];
      if xs[0] > m then xs[0] else m
  }

  /** `add_store_with_id`: 0 for a fresh allocator; otherwise the id freed
      longest ago, if any; otherwise one more than the largest id in use.
      The id is appended to the ids in use. The fallback for an `undefined`
      head of a nonempty free list cannot happen and is not modelled. */
  function AddStore(a: Allocator): (r: Added)
    ensures r.state.ids == a.ids + [r.id]
    ensures |a.ids| == 0 && |a.freeIds| == 0 ==> r.id == 0 && r.state.freeIds == []
    ensures |a.freeIds| > 0 ==> r.id == a.freeIds[0] && r.state.freeIds == a.freeIds[1..]
    ensures |a.freeIds| == 0 && |a.ids| > 0 ==>
      && r.state.freeIds == []
      && (forall i :: 0 <= i < |a.ids| ==> a.ids[i] < r.id)
      && r.id - 1 in a.ids
      && r.id == Max(a.ids) + 1
  {
    var id :=
      if |a.ids| == 0 && |a.freeIds| == 0 then 0
      else if |a.freeIds| != 0 then a.freeIds[0]
      else Max(a.ids) + 1;
    Added(Allocator(a.ids + [id], if |a.freeIds| != 0 then a.freeIds[1..] else a.freeIds), id)
  }

  /** `remove_store_with_id`: an id not in use changes nothing; otherwise
      its one occurrence leaves the ids in use and joins the end of the
      free list. */
  function RemoveStore(a: Allocator, id: int): (r: Allocator)
    ensures id !in a.ids ==> r == a
    ensures id in a.ids ==>
      var i := FirstIndex(a.ids, id);
      r.ids == a.ids[..i] + a.ids[i + 1..] && r.freeIds == a.freeIds + [id]
    ensures multiset(r.ids) + multiset(r.freeIds) == multiset(a.ids) + multiset(a.freeIds)
  {
    if id !in a.ids then a
    else
      var i := FirstIndex(a.ids, id);
      assert a.ids == a.ids[..i] + [id] + a.ids[i + 1..];
      Allocator(a.ids[..i] + a.ids[i + 1..], a.freeIds + [id])
  }

  /** The allocator's invariant: both lists are duplicate-free and
      disjoint, and together they hold exactly 0 .. n-1, where n is the
      number of ids ever handed out. */
  predicate Valid(a: Allocator) {
    && NoDup(a.ids)
    && NoDup(a.freeIds)
    && (forall x :: x in a.ids ==> x !in a.freeIds)
    && (forall x :: x in a.ids ==> 0 <= x < |a.ids| + |a.freeIds|)
    && (forall x :: x in a.freeIds ==> 0 <= x < |a.ids| + |a.freeIds|)
    && (forall x :: 0 <= x < |a.ids| + |a.freeIds| ==> x in a.ids || x in a.freeIds)
  }

  lemma InitialValid()
    ensures Valid(Initial)
  {
  }

  /** With nothing freed, the ids in use are 0 .. n-1, so the next one is n. */
  lemma NextIsCount(a: Allocator)
    requires Valid(a) && |a.freeIds| == 0 && |a.ids| > 0
    ensures Max(a.ids) + 1 == |a.ids|
  {
    assert |a.ids| - 1 in a.ids;
  }

  /** Adding keeps the invariant and hands out an id not in use. */
  lemma AddValid(a: Allocator)
    requires Valid(a)
    ensures Valid(AddStore(a).state)
    ensures AddStore(a).id !in a.ids && AddStore(a).id >= 0
  {
    var r := AddStore(a);
    if |a.freeIds| > 0 {
      assert a.freeIds == [r.id] + r.state.freeIds;
      assert r.id in a.freeIds;
      assert forall x :: x in r.state.freeIds ==> x in a.freeIds && x != r.id;
    } else if |a.ids| > 0 {
      NextIsCount(a);
    }
  }

  /** Cutting position `i` out of a duplicate-free list removes exactly
      that element and keeps the list duplicate-free. */
  lemma CutOut(s: seq<int>, i: nat)
    requires NoDup(s) && i < |s|
    ensures NoDup(s[..i] + s[i + 1..])
    ensures forall x :: x in s[..i] + s[i + 1..] <==> x in s && x != s[i]
  {
    var t := s[..i] + s[i + 1..];
    assert s == s[..i] + [s[i]] + s[i + 1..];
    assert forall p :: 0 <= p < |t| ==> t[p] == s[if p < i then p else p + 1];
  }

  /** Appending an element not yet present keeps a list duplicate-free. */
  lemma AppendFresh(s: seq<int>, x: int)
    requires NoDup(s) && x !in s
    ensures NoDup(s + [x])
  {
  }

  /** Removing keeps the invariant. */
  lemma RemoveValid(a: Allocator, id: int)
    requires Valid(a)
    ensures Valid(RemoveStore(a, id))
  {
    if id in a.ids {
      var i := FirstIndex(a.ids, id);
      CutOut(a.ids, i);
      AppendFresh(a.freeIds, id);
      var r := RemoveStore(a, id);
      assert |r.ids| + |r.freeIds| == |a.ids| + |a.freeIds|;
      assert forall x :: x in r.ids <==> x in a.ids && x != id;
    }
  }

  /** Removing an id that was appended last, and only there, drops it from
      the end and frees it. */
  lemma RemoveLast(ids: seq<int>, freeIds: seq<int>, x: int)
    requires x !in ids
    ensures RemoveStore(Allocator(ids + [x], freeIds), x) == Allocator(ids, freeIds + [x])
  {
    var s := ids + [x];
    FirstIndexUnique(s, x, |ids|);
    assert s[..|ids|] == ids && s[|ids| + 1..] == [];
  }

  /** Removing the id at the front of the in-use list drops it from there
      and frees it. */
  lemma RemoveFirst(ids: seq<int>, freeIds: seq<int>, x: int)
    ensures RemoveStore(Allocator([x] + ids, freeIds), x) == Allocator(ids, freeIds + [x])
  {
    var s := [x] + ids;
    assert FirstIndex(s, x) == 0;
    assert s[..0] + s[1..] == ids;
  }

  /** Removing the id just handed out gives back the ids in use before. */
  lemma RemoveAfterAdd(a: Allocator)
    requires Valid(a)
    ensures RemoveStore(AddStore(a).state, AddStore(a).id).ids == a.ids
    ensures RemoveStore(AddStore(a).state, AddStore(a).id).freeIds == AddStore(a).state.freeIds + [AddStore(a).id]
  {
    var r := AddStore(a);
    AddValid(a);
    RemoveLast(a.ids, r.state.freeIds, r.id);
  }

  lemma RemoveTwo()
    ensures RemoveStore(Allocator([0, 1, 2], []), 2) == Allocator([0, 1], [2])
  {
    var a := Allocator([0, 1, 2], []);
    FirstIndexUnique(a.ids, 2, 2);
    assert a.ids[..2] + a.ids[3..] == [0, 1];
  }

  lemma RemoveZero()
    ensures RemoveStore(Allocator([0, 1], [2]), 0) == Allocator([1], [2, 0])
  {
    RemoveFirst([1], [2], 0);
    assert [0] + [1] == [0, 1] && [2] + [0] == [2, 0];
  }

  /** Freed ids come back in the order they were freed, not lowest first:
      with 0, 1, 2 in use, removing 2 and then 0 makes the next ids 2, then 0. */
  lemma FreedFirstComesBackFirst()
    ensures var a := RemoveStore(RemoveStore(Allocator([0, 1, 2], []), 2), 0);
      AddStore(a).id == 2 && AddStore(AddStore(a).state).id == 0
  {
    RemoveTwo();
    RemoveZero();
    assert AddStore(Allocator([1], [2, 0])) == Added(Allocator([1, 2], [0]), 2);
  }

  /** One analysis of a HEPData record, with its `type` and its URL. */
  datatype HepAnalysis = HepAnalysis(kind: string, analysis: string)

  /** One resource of a HEPData record; only the file name is read. */
  datatype DoiEntry = DoiEntry(filename: string)

  /** A HEPData record; `analyses` may be missing from it. */
  datatype HepEntry = HepEntry(analyses: Option<seq<HepAnalysis>>, resources: seq<DoiEntry>)

  /** A workspace that can be loaded: its display name and URL. */
  datatype AnalysisRef = AnalysisRef(name: string, url: string)

  predicate IsHistFactory(a: HepAnalysis) {
    a.kind == "HistFactory"
  }

  /** Reference: the positions of the HistFactory analyses, in order. */
  function HistFactoryIndices(xs: seq<HepAnalysis>): (idx: seq<nat>)
    ensures forall k :: 0 <= k < |idx| ==> idx[k] < |xs|
  {
    if |xs| == 0 then []
    else HistFactoryIndices(xs[..|xs| - 1]) + (if IsHistFactory(xs[|xs| - 1]) then [|xs| - 1] else [])
  }

  /** The reference lists exactly the HistFactory positions, ascending. */
  lemma {:induction false} HistFactoryIndicesFacts(xs: seq<HepAnalysis>)
    ensures forall k :: 0 <= k < |HistFactoryIndices(xs)| ==>
      HistFactoryIndices(xs)[k] < |xs| && IsHistFactory(xs[HistFactoryIndices(xs)[k]])
    ensures forall i :: 0 <= i < |xs| && IsHistFactory(xs[i]) ==> i in HistFactoryIndices(xs)
    ensures forall k, l :: 0 <= k < l < |HistFactoryIndices(xs)| ==> HistFactoryIndices(xs)[k] < HistFactoryIndices(xs)[l]
  {
    if |xs| > 0 {
      var p := xs[..|xs| - 1];
      var last := |xs| - 1;
      HistFactoryIndicesFacts(p);
      var q := HistFactoryIndices(p);
      var t := if IsHistFactory(xs[last]) then [last] else [];
      assert HistFactoryIndices(xs) == q + t;
      assert forall i :: 0 <= i < |p| ==> p[i] == xs[i];
      assert forall k :: 0 <= k < |q| ==> q[k] < last;
      forall i | 0 <= i < |xs| && IsHistFactory(xs[i])
        ensures i in q + t
      {
        if i < last {
          assert IsHistFactory(p[i]);
        }
      }
    }
  }

  /** The selection loop of `check_workspaces_on_HEPdata`: for each
      HistFactory analysis, its URL named after the resource at the same
      position. None where that resource is missing, which JavaScript
      reports by throwing on `undefined.filename`. */
  method SelectHistFactory(xs: seq<HepAnalysis>, resources: seq<DoiEntry>) returns (r: Option<seq<AnalysisRef>>)
    ensures r.None? <==> exists i :: 0 <= i < |xs| && IsHistFactory(xs[i]) && i >= |resources|
    ensures r.Some? ==>
      var idx := HistFactoryIndices(xs);
      |r.value| == |idx| && forall k :: 0 <= k < |idx| ==>
        idx[k] < |resources| && r.value[k] == AnalysisRef(resources[idx[k]].filename, xs[idx[k]].analysis)
  {
    var selected: seq<AnalysisRef> := [];
    var index := 0;
    while index < |xs|
      invariant 0 <= index <= |xs|
      invariant forall i :: 0 <= i < index && IsHistFactory(xs[i]) ==> i < |resources|
      invariant var idx := HistFactoryIndices(xs[..index]);
        |selected| == |idx| && forall k :: 0 <= k < |idx| ==>
          idx[k] < |resources| && selected[k] == AnalysisRef(resources[idx[k]].filename, xs[idx[k]].analysis)
    {
      assert xs[..index + 1][..index] == xs[..index];
      if IsHistFactory(xs[index]) {
        if index >= |resources| {
          return None;
        }
        selected := selected + [AnalysisRef(resources[index].filename, xs[index].analysis)];
      }
      index := index + 1;
    }
    assert xs[..index] == xs;
    return Some(selected);
  }

  /** `check_workspaces_on_HEPdata` once the record is fetched: nothing for
      a record without analyses, otherwise the selection. An empty
      selection is reported to the user and returned as it is. */
  method CheckWorkspaces(entry: HepEntry) returns (r: Option<seq<AnalysisRef>>)
    ensures entry.analyses.None? ==> r == Some([])
    ensures entry.analyses.Some? ==>
      var xs := entry.analyses.value;
      && (r.None? <==> exists i :: 0 <= i < |xs| && IsHistFactory(xs[i]) && i >= |entry.resources|)
      && (r.Some? ==>
            var idx := HistFactoryIndices(xs);
            |r.value| == |idx| && forall k :: 0 <= k < |idx| ==>
              idx[k] < |entry.resources| && r.value[k] == AnalysisRef(entry.resources[idx[k]].filename, xs[idx[k]].analysis))
  {
    if entry.analyses.None? {
      return Some([]);
    }
    r := SelectHistFactory(entry.analyses.value, entry.resources);
  }
}

=== FILE: strings.dfy ===
/** String shortening for labels: keep at most a given number of
    characters and mark a cut with an ellipsis. */
module Strings {

  /** What `substring(0, n)` keeps: `n` clamped into 0 .. |s|. */
  function Kept(s: string, n: int): (k: nat)
    ensures k <= |s|
    ensures 0 <= n <= |s| ==> k == n
  {
    if n < 0 then 0 else if n > |s| then |s| else n
  }

  /** `shorten_string(s, n)`: the first `n` characters, followed by "..."
      when `s` is longer than `n`. */
  function Shorten(s: string, n: int): (r: string)
    ensures |s| <= n ==> r == s
    ensures |s| > n ==> r == s[..Kept(s, n)] + "..."
    ensures |r| == Kept(s, n) + (if |s| > n then 3 else 0)
    ensures r[..Kept(s, n)] == s[..Kept(s, n)]
  {
    s[..Kept(s, n)] + (if |s| > n then "..." else "")
  }

  /** The result is never longer than the bound plus the ellipsis. */
  lemma ShortenBound(s: string, n: nat)
    ensures |Shorten(s, n)| <= n + 3
    ensures |Shorten(s, n)| <= |s| || |s| > n
  {
  }

  /** Shortening an already shortened string with the same bound changes
      nothing. */
  lemma ShortenIdempotent(s: string, n: int)
    ensures Shorten(Shorten(s, n), n) == Shorten(s, n)
  {
    var r := Shorten(s, n);
    if |s| > n {
      assert |r| > n;
      assert r[..Kept(r, n)] == s[..Kept(s, n)];
    }
  }
}

=== FILE: totals.dfy ===
/** The two later uncertainty getters. `uncertainties_per_systematic` adds to
    every systematic of every channel its `overall` band: the process
    shifts summed bin by bin. `uncertainties` adds to every channel its
    `overall` band: per bin, the systematics' overall shifts relative to the
    nominal stack height, combined in quadrature and scaled back. */
module Totals {
  import opened Optional
  import opened Seqs
  import opened Records
  import opened HistFactory
  import opened Stacks
  import opened Uncertainties

  /** Up and down shifts per bin, without a type. */
  datatype Band = Band(hi: seq<real>, lo: seq<real>)

  /** One systematic of one channel after `uncertainties_per_systematic`. */
  datatype SystematicSummary = SystematicSummary(perProcess: Record<Uncertainty>, overall: Band)

  /** Channel name to systematic name to summary. */
  type PerSystematicTable = Record<Record<SystematicSummary>>

  /** Bin `i` of every row, 0 where a row is shorter. */
  function Column(rows: seq<seq<real>>, i: nat): (c: seq<real>)
    ensures |c| == |rows| && forall p :: 0 <= p < |rows| ==> c[p] == At(rows[p], i)
  {
    seq(|rows|, p requires 0 <= p < |rows| => At(rows[p], i))
  }

  lemma ColumnSnoc(rows: seq<seq<real>>, row: seq<real>, i: nat)
    ensures Column(rows + [row], i) == Column(rows, i) + [At(row, i)]
  {
  }

  /** `new Array(n).fill(0)`. */
  function Zeros(n: nat): (z: seq<real>)
    ensures |z| == n && forall i :: 0 <= i < n ==> z[i] == 0.0
  {
    seq(n, i => 0.0)
  }

  /** `for (i_bin < row.length) acc[i_bin] += row[i_bin]`. */
  function AddRow(acc: seq<real>, row: seq<real>): seq<real>
    requires |row| <= |acc|
  {
    seq(|acc|, i requires 0 <= i < |acc| => acc[i] + At(row, i))
  }

  /** The running totals of the process loop: started at `n` zeros, each
      row added in turn. Bin `i` ends up as the sum of every row's bin `i`. */
  function ColumnSums(rows: seq<seq<real>>, n: nat): (r: seq<real>)
    requires forall p :: 0 <= p < |rows| ==> |rows[p]| <= n
    ensures |r| == n
    ensures forall i :: 0 <= i < n ==> r[i] == Sum(Column(rows, i))
  {
    if |rows| == 0 then Zeros(n)
    else
      var front := rows[..|rows| - 1];
      var row := rows[|rows| - 1];
      var acc := ColumnSums(front, n);
      ColumnSumsStep(front, row, n, acc);
      assert rows == front + [row];
      AddRow(acc, row)
  }

  lemma ColumnSumsStep(front: seq<seq<real>>, row: seq<real>, n: nat, acc: seq<real>)
    requires |row| <= n && |acc| == n
    requires forall i :: 0 <= i < n ==> acc[i] == Sum(Column(front, i))
    ensures forall i :: 0 <= i < n ==> AddRow(acc, row)[i] == Sum(Column(front + [row], i))
  {
    forall i | 0 <= i < n
      ensures AddRow(acc, row)[i] == Sum(Column(front + [row], i))
    {
      ColumnSnoc(front, row, i);
      SumSnoc(Column(front, i), At(row, i));
    }
  }

  /** The up shifts of each process, in the table's order. */
  function His(procs: Record<Uncertainty>): (rows: seq<seq<real>>)
    ensures |rows| == |procs| && forall k :: 0 <= k < |procs| ==> rows[k] == procs[k].value.hi
  {
    seq(|procs|, k requires 0 <= k < |procs| => procs[k].value.hi)
  }

  /** The down shifts of each process, in the table's order. */
  function Los(procs: Record<Uncertainty>): (rows: seq<seq<real>>)
    ensures |rows| == |procs| && forall k :: 0 <= k < |procs| ==> rows[k] == procs[k].value.lo
  {
    seq(|procs|, k requires 0 <= k < |procs| => procs[k].value.lo)
  }

  /** What the process loop reads without hitting `undefined`: a first
      process to size the totals, and no process longer than it, with as
      many down shifts as up shifts. */
  predicate Balanced(procs: Record<Uncertainty>) {
    && |procs| > 0
    && forall k :: 0 <= k < |procs| ==>
         |procs[k].value.lo| == |procs[k].value.hi| && |procs[k].value.hi| <= |procs[0].value.hi|
  }

  /** The `overall` band of one systematic: sized by the first process,
      each bin the sum of that bin over all processes. */
  function SystematicOverall(procs: Record<Uncertainty>): (b: Band)
    requires Balanced(procs)
    ensures |b.hi| == |procs[0].value.hi| && |b.lo| == |b.hi|
    ensures forall i :: 0 <= i < |b.hi| ==>
      b.hi[i] == Sum(Column(His(procs), i)) && b.lo[i] == Sum(Column(Los(procs), i))
  {
    var n := |procs[0].value.hi|;
    Band(ColumnSums(His(procs), n), ColumnSums(Los(procs), n))
  }

  /** A systematic acting on one process only has that process's shifts
      as its overall band. */
  lemma SingleProcessOverall(f: Field<Uncertainty>)
    requires |f.value.lo| == |f.value.hi|
    ensures SystematicOverall([f]) == Band(f.value.hi, f.value.lo)
  {
    var b := SystematicOverall([f]);
    forall i | 0 <= i < |b.hi|
      ensures b.hi[i] == f.value.hi[i] && b.lo[i] == f.value.lo[i]
    {
      assert Column(His([f]), i) == [f.value.hi[i]];
      assert Column(Los([f]), i) == [f.value.lo[i]];
    }
  }

  /** Adding a process to a systematic adds its shifts to the overall band. */
  lemma OverallSnoc(procs: Record<Uncertainty>, f: Field<Uncertainty>)
    requires Balanced(procs)
    requires |f.value.lo| == |f.value.hi| <= |procs[0].value.hi|
    ensures Balanced(procs + [f])
    ensures var b := SystematicOverall(procs);
      var b' := SystematicOverall(procs + [f]);
      |b'.hi| == |b.hi| && forall i :: 0 <= i < |b.hi| ==>
        b'.hi[i] == b.hi[i] + At(f.value.hi, i) && b'.lo[i] == b.lo[i] + At(f.value.lo, i)
  {
    var b := SystematicOverall(procs);
    assert His(procs + [f]) == His(procs) + [f.value.hi];
    assert Los(procs + [f]) == Los(procs) + [f.value.lo];
    forall i | 0 <= i < |b.hi|
      ensures SystematicOverall(procs + [f]).hi[i] == b.hi[i] + At(f.value.hi, i)
      ensures SystematicOverall(procs + [f]).lo[i] == b.lo[i] + At(f.value.lo, i)
    {
      ColumnSnoc(His(procs), f.value.hi, i);
      SumSnoc(Column(His(procs), i), At(f.value.hi, i));
      ColumnSnoc(Los(procs), f.value.lo, i);
      SumSnoc(Column(Los(procs), i), At(f.value.lo, i));
    }
  }

  /** One systematic summarised. */
  function Summarize(f: Field<Record<Uncertainty>>): Field<SystematicSummary>
    requires Balanced(f.value)
  {
    Field(f.key, SystematicSummary(f.value, SystematicOverall(f.value)))
  }

  /** One channel summarised, systematic by systematic. */
  function SummarizeChannel(c: Record<Record<Uncertainty>>): (r: Record<SystematicSummary>)
    requires forall j :: 0 <= j < |c| ==> Balanced(c[j].value)
    ensures |r| == |c|
    ensures forall j :: 0 <= j < |c| ==> r[j] == Summarize(c[j])
  {
    seq(|c|, j requires 0 <= j < |c| && Balanced(c[j].value) => Summarize(c[j]))
  }

  predicate AllBalanced(t: PerProcessTable) {
    forall i, j :: 0 <= i < |t| && 0 <= j < |t[i].value| ==> Balanced(t[i].value[j].value)
  }

  /** `uncertainties_per_systematic`: the same channels and systematics in
      the same order, each systematic keeping its processes and gaining its
      overall band. */
  function PerSystematic(t: PerProcessTable): (r: PerSystematicTable)
    requires AllBalanced(t)
    ensures Keys(r) == Keys(t)
    ensures forall i :: 0 <= i < |t| ==>
      && Keys(r[i].value) == Keys(t[i].value)
      && forall j :: 0 <= j < |t[i].value| ==>
           r[i].value[j].value == SystematicSummary(t[i].value[j].value, SystematicOverall(t[i].value[j].value))
  {
    seq(|t|, i requires 0 <= i < |t| && forall j :: 0 <= j < |t[i].value| ==> Balanced(t[i].value[j].value) =>
      Field(t[i].key, SummarizeChannel(t[i].value)))
  }

  lemma UniformBalanced(c: Record<Record<Uncertainty>>, n: nat)
    requires Uniform(c, n)
    ensures forall j :: 0 <= j < |c| ==> Balanced(c[j].value)
  {
  }

  /** A table whose channels are uniform in the bin counts `ps` gives them
      is balanced, and its overall bands have those counts. */
  lemma UniformTable(t: PerProcessTable, ps: seq<Placed>)
    requires forall i :: 0 <= i < |t| ==> Uniform(t[i].value, Bins(ps, t[i].key))
    ensures AllBalanced(t)
    ensures forall i, j :: 0 <= i < |t| && 0 <= j < |t[i].value| ==>
      var b := SystematicOverall(t[i].value[j].value);
      |b.hi| == Bins(ps, t[i].key) && |b.lo| == |b.hi|
  {
    forall i | 0 <= i < |t|
      ensures forall j :: 0 <= j < |t[i].value| ==> Balanced(t[i].value[j].value)
    {
      UniformBalanced(t[i].value, Bins(ps, t[i].key));
    }
  }

  /** For a well-formed workspace the second getter reads no `undefined`,
      and every overall band has its channel's bin count up and down. */
  lemma PerSystematicShape(ws: Workspace)
    requires WellFormed(ws)
    ensures AllBalanced(PerProcess(ws))
    ensures forall i, j :: 0 <= i < |PerProcess(ws)| && 0 <= j < |PerProcess(ws)[i].value| ==>
      var b := SystematicOverall(PerProcess(ws)[i].value[j].value);
      |b.hi| == Bins(Samples(ws.channels), PerProcess(ws)[i].key) && |b.lo| == |b.hi|
  {
    PerProcessShape(ws);
    UniformTable(PerProcess(ws), Samples(ws.channels));
  }

  /** One channel after `uncertainties`. */
  datatype ChannelSummary = ChannelSummary(perSystematic: Record<SystematicSummary>, overall: Band)

  /** Channel `i` is the first one named `cn`. */
  predicate FirstChannelAt(bs: seq<BinwiseChannel>, i: int, cn: string) {
    0 <= i < |bs| && bs[i].name == cn && forall j :: 0 <= j < i ==> bs[j].name != cn
  }

  /** `stacked_data_per_bin.filter(c => c.name === cn)[0]`: the first
      channel of that name, None where JavaScript reads `undefined`. */
  function FirstNamed(bs: seq<BinwiseChannel>, cn: string): (r: Option<BinwiseChannel>)
    ensures r.None? <==> forall i :: 0 <= i < |bs| ==> bs[i].name != cn
    ensures r.Some? ==> exists i :: FirstChannelAt(bs, i, cn) && bs[i] == r.value
  {
    if |bs| == 0 then None
    else if bs[0].name == cn then Some(bs[0])
    else
      var r := FirstNamed(bs[1..], cn);
      assert forall i :: 0 < i < |bs| ==> bs[i] == bs[1..][i - 1];
      assert r.Some? ==> exists i :: FirstChannelAt(bs, i, cn) && bs[i] == r.value by {
        if r.Some? {
          var i :| FirstChannelAt(bs[1..], i, cn) && bs[1..][i] == r.value;
          assert FirstChannelAt(bs, i + 1, cn);
        }
      }
      r
  }

  /** The nominal yield of bin `b`: the top of its stack. */
  function Nominal(bc: BinwiseChannel, b: nat): real
    requires b < |bc.content| && |bc.content[b]| > 0
  {
    bc.content[b][|bc.content[b]| - 1].high
  }

  /** Every bin below `n` has a stack with a nonzero top; JavaScript would
      read `undefined` past the stacks and divide by zero on an empty bin. */
  predicate NominalsReadable(bc: BinwiseChannel, n: nat) {
    && n <= |bc.content|
    && forall b :: 0 <= b < n ==> |bc.content[b]| > 0 && Nominal(bc, b) != 0.0
  }

  /** `(x / nominal) ** 2` summed in order. */
  function QuadratureSum(xs: seq<real>, nominal: real): real
    requires nominal != 0.0
  {
    if |xs| == 0 then 0.0
    else
      var q := xs[|xs| - 1] / nominal;
      QuadratureSum(xs[..|xs| - 1], nominal) + q * q
  }

  /** Reference: the sum of squares of `xs`. */
  function SumSquares(xs: seq<real>): real {
    if |xs| == 0 then 0.0 else SumSquares(xs[..|xs| - 1]) + xs[|xs| - 1] * xs[|xs| - 1]
  }

  lemma ScaledSquare(x: real, nominal: real)
    requires nominal != 0.0
    ensures (x / nominal) * (x / nominal) * (nominal * nominal) == x * x
  {
    var q := x / nominal;
    assert q * nominal == x;
    assert q * q * (nominal * nominal) == (q * nominal) * (q * nominal);
  }

  /** The relative squares, scaled back by the nominal squared, are the
      absolute squares; and they are never negative. */
  lemma {:induction false} QuadratureScales(xs: seq<real>, nominal: real)
    requires nominal != 0.0
    ensures QuadratureSum(xs, nominal) * (nominal * nominal) == SumSquares(xs)
    ensures QuadratureSum(xs, nominal) >= 0.0
  {
    if |xs| > 0 {
      var x := xs[|xs| - 1];
      QuadratureScales(xs[..|xs| - 1], nominal);
      ScaledSquare(x, nominal);
      var q := x / nominal;
      assert q * q >= 0.0;
      assert (QuadratureSum(xs[..|xs| - 1], nominal) + q * q) * (nominal * nominal)
          == QuadratureSum(xs[..|xs| - 1], nominal) * (nominal * nominal) + q * q * (nominal * nominal);
    }
  }

  /** `x ** 0.5` on the values it is applied to, which are never negative. */
  ghost predicate IsSquareRoot(root: real -> real) {
    forall x :: x >= 0.0 ==> root(x) >= 0.0 && root(x) * root(x) == x
  }

  /** `(sum of (x / nominal) ** 2) ** 0.5 * nominal`. */
  function Quadrature(xs: seq<real>, nominal: real, root: real -> real): real
    requires nominal != 0.0
  {
    root(QuadratureSum(xs, nominal)) * nominal
  }

  /** The combined shift squares to the sum of the squared shifts, and has
      the nominal's sign: with a positive nominal both the up and the down
      band come out as magnitudes. */
  lemma QuadratureMagnitude(xs: seq<real>, nominal: real, root: real -> real)
    requires nominal != 0.0 && IsSquareRoot(root)
    ensures var q := Quadrature(xs, nominal, root);
      && q * q == SumSquares(xs)
      && (nominal > 0.0 ==> q >= 0.0)
      && (nominal < 0.0 ==> q <= 0.0)
  {
    var s := QuadratureSum(xs, nominal);
    QuadratureScales(xs, nominal);
    var r := root(s);
    assert r >= 0.0 && r * r == s;
    SquareOfProduct(r, nominal);
    SignOfProduct(r, nominal);
  }

  lemma SquareOfProduct(r: real, n: real)
    ensures (r * n) * (r * n) == (r * r) * (n * n)
  {
  }

  lemma SignOfProduct(r: real, n: real)
    requires r >= 0.0
    ensures n > 0.0 ==> r * n >= 0.0
    ensures n < 0.0 ==> r * n <= 0.0
  {
  }

  /** Shifts of 3 and 4 on a nominal of 100 combine to 5. */
  lemma ThreeFourFive(root: real -> real)
    requires IsSquareRoot(root)
    ensures Quadrature([3.0, 4.0], 100.0, root) == 5.0
  {
    var q := Quadrature([3.0, 4.0], 100.0, root);
    QuadratureMagnitude([3.0, 4.0], 100.0, root);
    assert [3.0, 4.0][..1] == [3.0];
    assert [3.0][..0] == [];
    assert SumSquares([3.0]) == 9.0;
    assert SumSquares([3.0, 4.0]) == 25.0;
    assert q >= 0.0 && q * q == 25.0;
    assert (q - 5.0) * (q + 5.0) == 0.0;
    assert q + 5.0 > 0.0;
  }

  /** The overall up shifts of each systematic, in the table's order. */
  function OverallHis(sys: Record<SystematicSummary>): (rows: seq<seq<real>>)
    ensures |rows| == |sys| && forall m :: 0 <= m < |sys| ==> rows[m] == sys[m].value.overall.hi
  {
    seq(|sys|, m requires 0 <= m < |sys| => sys[m].value.overall.hi)
  }

  /** The overall down shifts of each systematic, in the table's order. */
  function OverallLos(sys: Record<SystematicSummary>): (rows: seq<seq<real>>)
    ensures |rows| == |sys| && forall m :: 0 <= m < |sys| ==> rows[m] == sys[m].value.overall.lo
  {
    seq(|sys|, m requires 0 <= m < |sys| => sys[m].value.overall.lo)
  }

  /** What the channel loop reads without hitting `undefined` or dividing
      by zero: a first systematic to size the band, no systematic longer
      than it, and a nonzero nominal in every bin of that size. */
  predicate ChannelReadable(sys: Record<SystematicSummary>, bc: BinwiseChannel) {
    && |sys| > 0
    && (forall m :: 0 <= m < |sys| ==>
          |sys[m].value.overall.lo| == |sys[m].value.overall.hi| <= |sys[0].value.overall.hi|)
    && NominalsReadable(bc, |sys[0].value.overall.hi|)
  }

  /** A channel's `overall` band, sized by its first systematic: in each
      bin the systematics' overall shifts add in quadrature, so the band
      squared is the sum of their squares, and it has the sign of the
      nominal yield (the down band too: it is a magnitude, not a shift). */
  function ChannelOverall(sys: Record<SystematicSummary>, bc: BinwiseChannel, root: real -> real): (b: Band)
    requires ChannelReadable(sys, bc) && IsSquareRoot(root)
    ensures |b.hi| == |sys[0].value.overall.hi| && |b.lo| == |b.hi|
    ensures forall i :: 0 <= i < |b.hi| ==>
      && b.hi[i] * b.hi[i] == SumSquares(Column(OverallHis(sys), i))
      && b.lo[i] * b.lo[i] == SumSquares(Column(OverallLos(sys), i))
      && (Nominal(bc, i) > 0.0 ==> b.hi[i] >= 0.0 && b.lo[i] >= 0.0)
      && (Nominal(bc, i) < 0.0 ==> b.hi[i] <= 0.0 && b.lo[i] <= 0.0)
  {
    var n := |sys[0].value.overall.hi|;
    var hi := Quadratures(OverallHis(sys), bc, n, root);
    var lo := Quadratures(OverallLos(sys), bc, n, root);
    ChannelOverallFacts(sys, bc, root, hi, lo);
    Band(hi, lo)
  }

  /** Bin by bin, the rows' shifts combined in quadrature against that bin's nominal. */
  function Quadratures(rows: seq<seq<real>>, bc: BinwiseChannel, n: nat, root: real -> real): (q: seq<real>)
    requires NominalsReadable(bc, n)
    ensures |q| == n && forall i :: 0 <= i < n ==> q[i] == Quadrature(Column(rows, i), Nominal(bc, i), root)
  {
    seq(n, i requires 0 <= i < n => Quadrature(Column(rows, i), Nominal(bc, i), root))
  }

  lemma ChannelOverallFacts(sys: Record<SystematicSummary>, bc: BinwiseChannel, root: real -> real,
                            hi: seq<real>, lo: seq<real>)
    requires ChannelReadable(sys, bc) && IsSquareRoot(root)
    requires |hi| == |lo| == |sys[0].value.overall.hi|
    requires forall i :: 0 <= i < |hi| ==>
      hi[i] == Quadrature(Column(OverallHis(sys), i), Nominal(bc, i), root)
      && lo[i] == Quadrature(Column(OverallLos(sys), i), Nominal(bc, i), root)
    ensures forall i :: 0 <= i < |hi| ==>
      && hi[i] * hi[i] == SumSquares(Column(OverallHis(sys), i))
      && lo[i] * lo[i] == SumSquares(Column(OverallLos(sys), i))
      && (Nominal(bc, i) > 0.0 ==> hi[i] >= 0.0 && lo[i] >= 0.0)
      && (Nominal(bc, i) < 0.0 ==> hi[i] <= 0.0 && lo[i] <= 0.0)
  {
    forall i | 0 <= i < |hi|
      ensures hi[i] * hi[i] == SumSquares(Column(OverallHis(sys), i))
      ensures lo[i] * lo[i] == SumSquares(Column(OverallLos(sys), i))
      ensures Nominal(bc, i) > 0.0 ==> hi[i] >= 0.0 && lo[i] >= 0.0
      ensures Nominal(bc, i) < 0.0 ==> hi[i] <= 0.0 && lo[i] <= 0.0
    {
      QuadratureMagnitude(Column(OverallHis(sys), i), Nominal(bc, i), root);
      QuadratureMagnitude(Column(OverallLos(sys), i), Nominal(bc, i), root);
    }
  }

  /** Every channel of the table has a stacked channel of its name whose
      bins the channel loop can read. */
  predicate TableReadable(t: PerSystematicTable, perBin: seq<BinwiseChannel>) {
    forall i :: 0 <= i < |t| ==>
      FirstNamed(perBin, t[i].key).Some? && ChannelReadable(t[i].value, FirstNamed(perBin, t[i].key).value)
  }

  /** `uncertainties`: the same channels in the same order, each keeping its
      systematics and gaining its overall band, computed against the first
      stacked channel of its name. */
  function PerChannel(t: PerSystematicTable, perBin: seq<BinwiseChannel>, root: real -> real): (r: Record<ChannelSummary>)
    requires TableReadable(t, perBin) && IsSquareRoot(root)
    ensures Keys(r) == Keys(t)
    ensures |r| == |t| && forall i :: 0 <= i < |t| ==> r[i].key == t[i].key
    ensures forall i :: 0 <= i < |t| ==>
      r[i].value == ChannelSummary(t[i].value, ChannelOverall(t[i].value, FirstNamed(perBin, t[i].key).value, root))
  {
    seq(|t|, i requires 0 <= i < |t| && TableReadable(t, perBin) && IsSquareRoot(root) =>
      Field(t[i].key, ChannelSummary(t[i].value, ChannelOverall(t[i].value, FirstNamed(perBin, t[i].key).value, root))))
  }

  /** Every bin of the stacked channel that the channel loop reads, the
      first one of each name that has a systematic modifier, has a nonzero
      nominal yield. Other stacked channels are never divided by. */
  predicate NonZeroNominals(ws: Workspace)
    requires PerBinReadable(ws)
  {
    var perBin := StackedDataPerBin(ws);
    forall i ::
      (0 <= i < |perBin| && FirstChannelAt(perBin, i, perBin[i].name)
       && perBin[i].name in KeysOf(Systematics(ws), AttachedChannel)) ==>
        NominalsReadable(perBin[i], |perBin[i].content|)
  }

  /** A modifier of the workspace sits in one of its channels. */
  lemma AttachedInChannel(ws: Workspace, a: Attached)
    requires a in AllAttachments(ws)
    ensures exists c :: 0 <= c < |ws.channels| && ws.channels[c].name == a.channel
  {
    var ps := Samples(ws.channels);
    var k :| 0 <= k < |ps| && a in AttachAll(ps[k]);
    var c :| 0 <= c < |ws.channels| && ps[k] in PlaceAll(ws.channels[c]);
  }

  /** A channel of the table is a channel of the workspace. */
  lemma TableChannel(ws: Workspace, i: nat)
    requires i < |PerProcess(ws)|
    ensures exists c :: 0 <= c < |ws.channels| && ws.channels[c].name == PerProcess(ws)[i].key
    ensures PerProcess(ws)[i].key in KeysOf(Systematics(ws), AttachedChannel)
  {
    var xs := Systematics(ws);
    AccumulateEntry(xs, (), AttachedChannel, ChannelStep, i);
    var m :| 0 <= m < |xs| && KeysOf(xs, AttachedChannel)[m] == PerProcess(ws)[i].key;
    AttachedInChannel(ws, xs[m]);
  }

  /** In a well-formed workspace the stacked channel has the channel's bin count. */
  lemma StackedBins(ws: Workspace, c: nat)
    requires WellFormed(ws) && PerBinReadable(ws) && c < |ws.channels|
    ensures |StackedDataPerBin(ws)[c].content| == Bins(Samples(ws.channels), ws.channels[c].name)
  {
    var ps := Samples(ws.channels);
    assert BinsReadable(ws.channels[c]);
    assert Placed(ws.channels[c].name, ws.channels[c].samples[0]) in ps;
    var k :| 0 <= k < |ps| && ps[k] == Placed(ws.channels[c].name, ws.channels[c].samples[0]);
  }

  /** A channel whose processes are uniform with `n` bins, against a
      stacked channel with `n` readable bins, is readable by the channel loop. */
  lemma SummaryReadable(c: Record<Record<Uncertainty>>, sys: Record<SystematicSummary>, n: nat, bc: BinwiseChannel)
    requires Uniform(c, n) && NominalsReadable(bc, n)
    requires |sys| == |c|
    requires forall j :: 0 <= j < |c| ==> Balanced(c[j].value) && sys[j].value.overall == SystematicOverall(c[j].value)
    ensures ChannelReadable(sys, bc)
  {
  }

  /** Every channel named in the workspace has a first stacked channel of
      that name; in a well-formed workspace its bins are the channel's, and
      when the name has a systematic modifier they are readable. */
  lemma StackedNamed(ws: Workspace, cn: string)
    requires WellFormed(ws) && PerBinReadable(ws) && NonZeroNominals(ws)
    requires exists c :: 0 <= c < |ws.channels| && ws.channels[c].name == cn
    requires cn in KeysOf(Systematics(ws), AttachedChannel)
    ensures FirstNamed(StackedDataPerBin(ws), cn).Some?
    ensures NominalsReadable(FirstNamed(StackedDataPerBin(ws), cn).value, Bins(Samples(ws.channels), cn))
  {
    var perBin := StackedDataPerBin(ws);
    var c :| 0 <= c < |ws.channels| && ws.channels[c].name == cn;
    assert perBin[c].name == cn;
    var bc := FirstNamed(perBin, cn).value;
    var c' :| FirstChannelAt(perBin, c', cn) && perBin[c'] == bc;
    StackedBins(ws, c');
  }

  /** What the third getter needs holds for every channel of the second. */
  lemma ChannelReads(ws: Workspace, t: PerSystematicTable, i: nat)
    requires WellFormed(ws) && PerBinReadable(ws) && NonZeroNominals(ws)
    requires |t| == |PerProcess(ws)| && i < |t| && t[i].key == PerProcess(ws)[i].key
    requires |t[i].value| == |PerProcess(ws)[i].value|
    requires forall j :: 0 <= j < |t[i].value| ==>
      Balanced(PerProcess(ws)[i].value[j].value)
      && t[i].value[j].value.overall == SystematicOverall(PerProcess(ws)[i].value[j].value)
    ensures FirstNamed(StackedDataPerBin(ws), t[i].key).Some?
    ensures ChannelReadable(t[i].value, FirstNamed(StackedDataPerBin(ws), t[i].key).value)
  {
    var cn := t[i].key;
    ChannelShape(ws, i);
    TableChannel(ws, i);
    StackedNamed(ws, cn);
    SummaryReadable(PerProcess(ws)[i].value, t[i].value, Bins(Samples(ws.channels), cn),
                    FirstNamed(StackedDataPerBin(ws), cn).value);
  }

  /** `r` keeps, channel by channel and systematic by systematic, the
      per-process cells of `t0` under the same names and in the same order,
      each systematic with its overall band. */
  predicate KeepsSystematics(t0: PerProcessTable, r: Record<ChannelSummary>) {
    && |r| == |t0|
    && forall i :: 0 <= i < |r| ==>
         && r[i].key == t0[i].key
         && |r[i].value.perSystematic| == |t0[i].value|
         && forall j :: 0 <= j < |t0[i].value| ==>
              && r[i].value.perSystematic[j].key == t0[i].value[j].key
              && Balanced(t0[i].value[j].value)
              && r[i].value.perSystematic[j].value ==
                   SystematicSummary(t0[i].value[j].value, SystematicOverall(t0[i].value[j].value))
  }

  /** The whole of `uncertainties` as the third getter sees it: the channels
      having a systematic modifier, each once in first-seen order; each
      channel keeps the per-process cells of its systematics with their
      overall bands (KeepsSystematics); each channel's band has the
      channel's bin count and, bin by bin, squares to the sum of the
      squared overall bands of its systematics, with the sign of the
      nominal read from the first stacked channel of its name
      (OverallFacts). */
  function WorkspaceUncertainties(ws: Workspace, root: real -> real): (r: Record<ChannelSummary>)
    requires WellFormed(ws) && PerBinReadable(ws) && NonZeroNominals(ws) && IsSquareRoot(root)
    ensures UniqueKeys(r) && Keys(r) == Distinct(KeysOf(Systematics(ws), AttachedChannel))
    ensures KeepsSystematics(PerProcess(ws), r)
    ensures forall i :: 0 <= i < |r| ==>
      && |r[i].value.overall.hi| == Bins(Samples(ws.channels), r[i].key)
      && FirstNamed(StackedDataPerBin(ws), r[i].key).Some?
      && OverallFacts(r[i].value.perSystematic, FirstNamed(StackedDataPerBin(ws), r[i].key).value, r[i].value.overall)
  {
    PerSystematicShape(ws);
    var t := PerSystematic(PerProcess(ws));
    TableReads(ws, t);
    var r := PerChannel(t, StackedDataPerBin(ws), root);
    PerChannelFacts(t, StackedDataPerBin(ws), root, r);
    KeepsTable(PerProcess(ws), t, r);
    assert Keys(r) == Keys(PerProcess(ws));
    r
  }

  /** The third getter keeps the second getter's table, which keeps the
      first's cells. */
  lemma KeepsTable(t0: PerProcessTable, t: PerSystematicTable, r: Record<ChannelSummary>)
    requires AllBalanced(t0) && t == PerSystematic(t0)
    requires |r| == |t| && forall i :: 0 <= i < |r| ==> r[i].key == t[i].key && r[i].value.perSystematic == t[i].value
    ensures KeepsSystematics(t0, r)
  {
    assert |Keys(t)| == |Keys(t0)|;
    forall i | 0 <= i < |r|
      ensures r[i].key == t0[i].key && |r[i].value.perSystematic| == |t0[i].value|
      ensures forall j :: 0 <= j < |t0[i].value| ==>
        r[i].value.perSystematic[j].key == t0[i].value[j].key
    {
      KeepsChannel(t0, t, i);
    }
  }

  lemma KeepsChannel(t0: PerProcessTable, t: PerSystematicTable, i: nat)
    requires AllBalanced(t0) && t == PerSystematic(t0) && i < |t0|
    ensures |t| == |t0| && t[i].key == t0[i].key && |t[i].value| == |t0[i].value|
    ensures forall j :: 0 <= j < |t0[i].value| ==> t[i].value[j].key == t0[i].value[j].key
  {
    assert |Keys(t)| == |Keys(t0)| && Keys(t)[i] == Keys(t0)[i];
    assert |Keys(t[i].value)| == |Keys(t0[i].value)|;
    forall j | 0 <= j < |t0[i].value|
      ensures t[i].value[j].key == t0[i].value[j].key
    {
      assert Keys(t[i].value)[j] == Keys(t0[i].value)[j];
    }
  }

  /** Channel by channel, the third getter keeps the second's table and adds
      a band sized by the first systematic whose square is the sum of the
      systematics' squares. */
  lemma PerChannelFacts(t: PerSystematicTable, perBin: seq<BinwiseChannel>, root: real -> real, r: Record<ChannelSummary>)
    requires TableReadable(t, perBin) && IsSquareRoot(root) && r == PerChannel(t, perBin, root)
    ensures |r| == |t|
    ensures forall i :: 0 <= i < |r| ==>
      && r[i].key == t[i].key && r[i].value.perSystematic == t[i].value
      && FirstNamed(perBin, r[i].key).Some?
      && OverallFacts(r[i].value.perSystematic, FirstNamed(perBin, r[i].key).value, r[i].value.overall)
  {
    forall i | 0 <= i < |r|
      ensures OverallFacts(r[i].value.perSystematic, FirstNamed(perBin, t[i].key).value, r[i].value.overall)
    {
      OverallHolds(t[i].value, FirstNamed(perBin, t[i].key).value, root);
    }
  }

  /** One channel's band meets OverallFacts. */
  lemma OverallHolds(sys: Record<SystematicSummary>, bc: BinwiseChannel, root: real -> real)
    requires ChannelReadable(sys, bc) && IsSquareRoot(root)
    ensures OverallFacts(sys, bc, ChannelOverall(sys, bc, root))
  {
  }

  /** `b` is sized by the first systematic of `sys`, squares to the sum of
      the squares of their overall bands bin by bin, and has the sign of
      that bin's nominal yield in `bc`. */
  predicate OverallFacts(sys: Record<SystematicSummary>, bc: BinwiseChannel, b: Band) {
    && |sys| > 0
    && |b.hi| == |sys[0].value.overall.hi| && |b.lo| == |b.hi|
    && NominalsReadable(bc, |b.hi|)
    && forall k :: 0 <= k < |b.hi| ==>
         && b.hi[k] * b.hi[k] == SumSquares(Column(OverallHis(sys), k))
         && b.lo[k] * b.lo[k] == SumSquares(Column(OverallLos(sys), k))
         && (Nominal(bc, k) > 0.0 ==> b.hi[k] >= 0.0 && b.lo[k] >= 0.0)
         && (Nominal(bc, k) < 0.0 ==> b.hi[k] <= 0.0 && b.lo[k] <= 0.0)
  }

  /** The second getter's table as seen channel by channel. */
  lemma PerSystematicAt(t0: PerProcessTable, t: PerSystematicTable, i: nat)
    requires AllBalanced(t0) && t == PerSystematic(t0) && i < |t0|
    ensures |t| == |t0| && t[i].key == t0[i].key && |t[i].value| == |t0[i].value|
    ensures forall j :: 0 <= j < |t[i].value| ==> t[i].value[j].value.overall == SystematicOverall(t0[i].value[j].value)
  {
    assert |Keys(t)| == |Keys(t0)| && Keys(t)[i] == Keys(t0)[i];
    assert |Keys(t[i].value)| == |Keys(t0[i].value)|;
  }

  lemma TableReads(ws: Workspace, t: PerSystematicTable)
    requires WellFormed(ws) && PerBinReadable(ws) && NonZeroNominals(ws)
    requires AllBalanced(PerProcess(ws)) && t == PerSystematic(PerProcess(ws))
    ensures TableReadable(t, StackedDataPerBin(ws))
    ensures forall i :: 0 <= i < |t| ==>
      |t[i].value| > 0 && |t[i].value[0].value.overall.hi| == Bins(Samples(ws.channels), t[i].key)
  {
    forall i | 0 <= i < |t|
      ensures FirstNamed(StackedDataPerBin(ws), t[i].key).Some?
      ensures ChannelReadable(t[i].value, FirstNamed(StackedDataPerBin(ws), t[i].key).value)
      ensures |t[i].value| > 0 && |t[i].value[0].value.overall.hi| == Bins(Samples(ws.channels), t[i].key)
    {
      TableReadsAt(ws, t, i);
    }
  }

  lemma TableReadsAt(ws: Workspace, t: PerSystematicTable, i: nat)
    requires WellFormed(ws) && PerBinReadable(ws) && NonZeroNominals(ws)
    requires AllBalanced(PerProcess(ws)) && t == PerSystematic(PerProcess(ws)) && i < |t|
    ensures FirstNamed(StackedDataPerBin(ws), t[i].key).Some?
    ensures ChannelReadable(t[i].value, FirstNamed(StackedDataPerBin(ws), t[i].key).value)
    ensures |t[i].value| > 0 && |t[i].value[0].value.overall.hi| == Bins(Samples(ws.channels), t[i].key)
  {
    var t0 := PerProcess(ws);
    PerSystematicAt(t0, t, i);
    ChannelReads(ws, t, i);
    ChannelShape(ws, i);
  }
}

=== FILE: uncertainties.dfy ===
/** The uncertainty getters of the workspace store, in three stages that
    each extend the previous result:
    `uncertainties_per_systematic_per_process` (per channel, systematic and
    process, the up and down shifts of every bin),
    `uncertainties_per_systematic` (adds each systematic's shifts summed
    over processes) and `uncertainties` (adds the channel's shifts combined
    in quadrature relative to the nominal yield). */
module Uncertainties {
  import opened Optional
  import opened Seqs
  import opened Records
  import opened HistFactory
  import opened Modifiers
  import opened Stacks

  /** Up and down shifts per bin, and the type they came from. */
  datatype Uncertainty = Uncertainty(hi: seq<real>, lo: seq<real>, kind: string)

  /** The types the uncertainty loop handles; `lumi`, `normfactor` and
      unknown types are skipped. */
  predicate IsSystematic(m: Modifier) {
    Kind(m) == "normsys" || Kind(m) == "histosys" || Kind(m) == "staterror"
  }

  /** The systematic modifiers among `xs`, in order. */
  function SystematicsOf(xs: seq<Attached>): (r: seq<Attached>)
    ensures forall k :: 0 <= k < |r| ==> IsSystematic(r[k].modifier) && r[k] in xs
    ensures forall k :: 0 <= k < |xs| && IsSystematic(xs[k].modifier) ==> xs[k] in r
  {
    if |xs| == 0 then []
    else
      var p := xs[..|xs| - 1];
      var x := xs[|xs| - 1];
      assert forall k :: 0 <= k < |p| ==> p[k] == xs[k];
      SystematicsOf(p) + (if IsSystematic(x.modifier) then [x] else [])
  }

  /** The filter keeps a systematic modifier as the one-element list and
      drops any other. */
  lemma SystematicsOfSingle(x: Attached)
    ensures SystematicsOf([x]) == if IsSystematic(x.modifier) then [x] else []
  {
    assert [x][..0] == [];
  }

  /** The filter works piece by piece: what it keeps of `xs + ys` is what
      it keeps of `xs`, then what it keeps of `ys`, each in order and with
      repeats kept. */
  lemma {:induction false} SystematicsOfAppend(xs: seq<Attached>, ys: seq<Attached>)
    ensures SystematicsOf(xs + ys) == SystematicsOf(xs) + SystematicsOf(ys)
    decreases |ys|
  {
    if |ys| == 0 {
      assert xs + ys == xs;
    } else {
      var ys' := ys[..|ys| - 1];
      var y := ys[|ys| - 1];
      SystematicsOfAppend(xs, ys');
      assert (xs + ys)[..|xs + ys| - 1] == xs + ys';
      assert (xs + ys)[|xs + ys| - 1] == y;
      var tail := if IsSystematic(y.modifier) then [y] else [];
      assert SystematicsOf(xs + ys) == SystematicsOf(xs + ys') + tail;
      assert SystematicsOf(ys) == SystematicsOf(ys') + tail;
    }
  }

  /** Every systematic modifier of the workspace, in the order of the triple loop. */
  function Systematics(ws: Workspace): seq<Attached> {
    SystematicsOf(AllAttachments(ws))
  }

  /** Bin `i` of a payload, 0 past its end. JavaScript reads `undefined`
      there and the sum becomes NaN; well-formed workspaces never do. */
  function At(s: seq<real>, i: nat): real {
    if i < |s| then s[i] else 0.0
  }

  /** The shifts one systematic modifier puts on its sample, bin by bin:
      the distance from the nominal bin content to the varied one. */
  function Shift(a: Attached): (u: Uncertainty)
    ensures u.kind == Kind(a.modifier)
    ensures IsSystematic(a.modifier) ==> |u.hi| == |a.sample.data| && |u.lo| == |a.sample.data|
    ensures a.modifier.NormSys? ==> forall i :: 0 <= i < |u.hi| ==>
      && a.sample.data[i] + u.hi[i] == a.sample.data[i] * a.modifier.hi
      && a.sample.data[i] + u.lo[i] == a.sample.data[i] * a.modifier.lo
    ensures a.modifier.HistoSys? && PayloadFits(a.modifier, |a.sample.data|) ==> forall i :: 0 <= i < |u.hi| ==>
      && a.sample.data[i] + u.hi[i] == a.modifier.hiData[i]
      && a.sample.data[i] + u.lo[i] == a.modifier.loData[i]
    ensures a.modifier.StatError? && PayloadFits(a.modifier, |a.sample.data|) ==> forall i :: 0 <= i < |u.hi| ==>
      u.hi[i] == a.modifier.errors[i] && u.lo[i] == -u.hi[i]
  {
    var data := a.sample.data;
    var n := |data|;
    match a.modifier
    case NormSys(_, hi, lo) =>
      Uncertainty(seq(n, i requires 0 <= i < n => data[i] * (hi - 1.0)),
                  seq(n, i requires 0 <= i < n => data[i] * (lo - 1.0)), "normsys")
    case HistoSys(_, hiData, loData) =>
      Uncertainty(seq(n, i requires 0 <= i < n => At(hiData, i) - data[i]),
                  seq(n, i requires 0 <= i < n => At(loData, i) - data[i]), "histosys")
    case StatError(_, errors) =>
      Uncertainty(seq(n, i requires 0 <= i < n => At(errors, i)),
                  seq(n, i requires 0 <= i < n => -At(errors, i)), "staterror")
    case _ => Uncertainty([], [], Kind(a.modifier))
  }

  /** `a.map((num, idx) => num + b[idx])`. */
  function ZipAdd(a: seq<real>, b: seq<real>): (r: seq<real>)
    ensures |r| == |a|
    ensures |b| >= |a| ==> forall i :: 0 <= i < |a| ==> r[i] == a[i] + b[i]
  {
    seq(|a|, i requires 0 <= i < |a| => a[i] + At(b, i))
  }

  /** Storing the shifts `u` of a modifier where `stored` may already hold
      an entry for the same channel, systematic and process: a `normsys`
      meeting a `histosys` (or the reverse) adds up into `normhisto`; in
      every other case the new entry replaces the old. */
  function Merge(stored: Option<Uncertainty>, u: Uncertainty): (r: Uncertainty)
    ensures stored.None? ==> r == u
    ensures stored.Some? && !PairsWith(stored.value.kind, u.kind) ==> r == u
    ensures stored.Some? && PairsWith(stored.value.kind, u.kind) ==>
      var e := stored.value;
      && r.kind == "normhisto"
      && |r.hi| == |e.hi| && |r.lo| == |e.lo|
      && (|u.hi| >= |e.hi| ==> forall i :: 0 <= i < |e.hi| ==> r.hi[i] == e.hi[i] + u.hi[i])
      && (|u.lo| >= |e.lo| ==> forall i :: 0 <= i < |e.lo| ==> r.lo[i] == e.lo[i] + u.lo[i])
  {
    match stored
    case Some(e) =>
      if PairsWith(e.kind, u.kind) then Uncertainty(ZipAdd(e.hi, u.hi), ZipAdd(e.lo, u.lo), "normhisto") else u
    case None => u
  }

  /** Reference: the entry left by the modifiers `xs` of one channel,
      systematic and process, merged in order. */
  function Combined(xs: seq<Attached>): Option<Uncertainty> {
    if |xs| == 0 then None else Some(Merge(Combined(xs[..|xs| - 1]), Shift(xs[|xs| - 1])))
  }

  function AttachedChannel(a: Attached): string { a.channel }

  function AttachedSample(a: Attached): string { a.sample.name }

  /** The innermost loop body: `per_process[process.name]` updated. */
  function ProcessStep(u: (), stored: Option<Uncertainty>, a: Attached): Uncertainty {
    Merge(stored, Shift(a))
  }

  /** `per_systematic[modifier.name]` created if missing, then updated. */
  function SystematicStep(u: (), stored: Option<Record<Uncertainty>>, a: Attached): Record<Uncertainty> {
    Nest((), AttachedSample, ProcessStep, stored, a)
  }

  /** `total_uncertainty[channel.name]` created if missing, then updated. */
  function ChannelStep(u: (), stored: Option<Record<Record<Uncertainty>>>, a: Attached): Record<Record<Uncertainty>> {
    Nest((), AttachedName, SystematicStep, stored, a)
  }

  /** Channel name to systematic name to process name to entry. */
  type PerProcessTable = Record<Record<Record<Uncertainty>>>

  /** `uncertainties_per_systematic_per_process`: one entry per channel
      that has a systematic modifier, in the order first met. */
  function PerProcess(ws: Workspace): (r: PerProcessTable)
    ensures UniqueKeys(r) && Keys(r) == Distinct(KeysOf(Systematics(ws), AttachedChannel))
  {
    AccumulateFresh(Systematics(ws), (), AttachedChannel, ChannelStep);
    Accumulate([], Systematics(ws), (), AttachedChannel, ChannelStep)
  }

  /** The entry at channel `cn`, systematic `mn`, process `pn`, if any. */
  function Lookup(t: PerProcessTable, cn: string, mn: string, pn: string): Option<Uncertainty> {
    match Get(t, cn)
    case None => None
    case Some(c) =>
      match Get(c, mn)
      case None => None
      case Some(s) => Get(s, pn)
  }

  /** The modifiers among `xs` of channel `cn`, systematic `mn` and process `pn`. */
  function Matching(xs: seq<Attached>, cn: string, mn: string, pn: string): seq<Attached> {
    if |xs| == 0 then []
    else
      var x := xs[|xs| - 1];
      Matching(xs[..|xs| - 1], cn, mn, pn)
        + (if x.channel == cn && x.modifier.name == mn && x.sample.name == pn then [x] else [])
  }

  lemma {:induction false} MatchingWhere(xs: seq<Attached>, cn: string, mn: string, pn: string)
    ensures Where(Where(Where(xs, AttachedChannel, cn), AttachedName, mn), AttachedSample, pn) == Matching(xs, cn, mn, pn)
  {
    if |xs| > 0 {
      var p := xs[..|xs| - 1];
      var x := xs[|xs| - 1];
      MatchingWhere(p, cn, mn, pn);
      assert xs == p + [x];
      var w1 := Where(p, AttachedChannel, cn);
      var w2 := Where(w1, AttachedName, mn);
      var w3 := Where(w2, AttachedSample, pn);
      assert Matching(xs, cn, mn, pn) == w3 + (if x.channel == cn && x.modifier.name == mn && x.sample.name == pn then [x] else []);
      WhereSnoc(p, x, AttachedChannel, cn);
      if x.channel == cn {
        assert Where(xs, AttachedChannel, cn) == w1 + [x];
        WhereSnoc(w1, x, AttachedName, mn);
        if x.modifier.name == mn {
          assert Where(w1 + [x], AttachedName, mn) == w2 + [x];
          WhereSnoc(w2, x, AttachedSample, pn);
        } else {
          assert Where(w1 + [x], AttachedName, mn) == w2;
        }
      } else {
        assert Where(xs, AttachedChannel, cn) == w1;
      }
    }
  }

  /** The process-level fold read at `pn` is the merge of that process's modifiers. */
  lemma {:induction false} CombinedFold(xs: seq<Attached>, pn: string)
    ensures FoldKey(None, xs, pn, (), AttachedSample, ProcessStep) == Combined(Where(xs, AttachedSample, pn))
  {
    if |xs| > 0 {
      var p := xs[..|xs| - 1];
      var x := xs[|xs| - 1];
      CombinedFold(p, pn);
      var f := FoldKey(None, p, pn, (), AttachedSample, ProcessStep);
      var w := Where(p, AttachedSample, pn);
      assert f == Combined(w);
      if x.sample.name == pn {
        assert FoldKey(None, xs, pn, (), AttachedSample, ProcessStep) == Some(ProcessStep((), f, x));
        assert Where(xs, AttachedSample, pn) == w + [x];
        assert (w + [x])[..|w|] == w;
        assert Combined(w + [x]) == Some(Merge(Combined(w), Shift(x)));
      } else {
        assert FoldKey(None, xs, pn, (), AttachedSample, ProcessStep) == f;
        assert Where(xs, AttachedSample, pn) == w;
      }
    }
  }

  /** The process table of one channel and systematic, read at `pn`. */
  lemma ProcessLevel(w: seq<Attached>, pn: string)
    ensures Get(Accumulate([], w, (), AttachedSample, ProcessStep), pn) == Combined(Where(w, AttachedSample, pn))
  {
    AccumulateAt([], w, (), AttachedSample, ProcessStep, pn);
    CombinedFold(w, pn);
  }

  /** The systematic table of one channel, read at `mn` and then `pn`. */
  lemma SystematicLevel(w: seq<Attached>, mn: string, pn: string)
    ensures (match Get(Accumulate([], w, (), AttachedName, SystematicStep), mn)
             case None => None
             case Some(s) => Get(s, pn))
         == Combined(Where(Where(w, AttachedName, mn), AttachedSample, pn))
  {
    AccumulateAt([], w, (), AttachedName, SystematicStep, mn);
    FoldKeyNest(w, mn, (), AttachedName, AttachedSample, ProcessStep, SystematicStep);
    var w2 := Where(w, AttachedName, mn);
    if mn in KeysOf(w, AttachedName) {
      ProcessLevel(w2, pn);
    } else {
      WhereEmpty(w, AttachedName, mn);
      assert w2 == [];
    }
  }

  /** Every cell of `uncertainties_per_systematic_per_process` is the merge,
      in loop order, of the systematic modifiers of that channel name,
      modifier name and sample name; a cell is missing exactly when there
      are none. */
  lemma PerProcessAt(ws: Workspace, cn: string, mn: string, pn: string)
    ensures Lookup(PerProcess(ws), cn, mn, pn) == Combined(Matching(Systematics(ws), cn, mn, pn))
  {
    var xs := Systematics(ws);
    MatchingWhere(xs, cn, mn, pn);
    AccumulateAt([], xs, (), AttachedChannel, ChannelStep, cn);
    FoldKeyNest(xs, cn, (), AttachedChannel, AttachedName, SystematicStep, ChannelStep);
    var w1 := Where(xs, AttachedChannel, cn);
    if cn in KeysOf(xs, AttachedChannel) {
      SystematicLevel(w1, mn, pn);
    } else {
      WhereEmpty(xs, AttachedChannel, cn);
      assert w1 == [];
    }
  }

  /** The types of the modifiers `xs`, in order. */
  function KindsOf(xs: seq<Attached>): (ks: seq<string>)
    ensures |ks| == |xs| && forall i :: 0 <= i < |xs| ==> ks[i] == Kind(xs[i].modifier)
  {
    seq(|xs|, i requires 0 <= i < |xs| => Kind(xs[i].modifier))
  }

  /** The type an entry ends up with is the one `modifier_types` records
      for the same sequence of modifier types: `normhisto` after a
      `normsys`/`histosys` pair, otherwise the last type. An entry exists
      exactly when some modifier was merged into it. */
  lemma {:induction false} CombinedKind(xs: seq<Attached>)
    ensures Combined(xs).Some? <==> |xs| > 0
    ensures |xs| > 0 ==> Combined(xs).value.kind == ResolveKinds(KindsOf(xs))
  {
    if |xs| > 0 {
      var p := xs[..|xs| - 1];
      var x := xs[|xs| - 1];
      CombinedKind(p);
      assert KindsOf(xs)[..|xs| - 1] == KindsOf(p);
      if |p| == 0 {
        assert ResolveKinds(KindsOf(p)) == "none";
      }
      MergeKind(Combined(p), Shift(x));
    }
  }

  /** Merging resolves the stored type against the new one, as
      `modifier_types` does, with a missing entry read as `none`. */
  lemma MergeKind(stored: Option<Uncertainty>, u: Uncertainty)
    ensures Merge(stored, u).kind == Resolve(if stored.Some? then stored.value.kind else "none", u.kind)
  {
    if stored.None? {
      assert !PairsWith("none", u.kind) by {
        assert "none"[0] != "histosys"[0] && "none"[0] != "normsys"[1];
      }
    }
  }

  /** Merged shifts keep the bin count of the samples they come from. */
  lemma {:induction false} CombinedLength(xs: seq<Attached>, n: nat)
    requires forall i :: 0 <= i < |xs| ==> IsSystematic(xs[i].modifier) && |xs[i].sample.data| == n
    ensures |xs| > 0 ==> |Combined(xs).value.hi| == n && |Combined(xs).value.lo| == n
  {
    if |xs| > 1 {
      var p := xs[..|xs| - 1];
      assert forall i :: 0 <= i < |p| ==> p[i] == xs[i];
      CombinedLength(p, n);
    }
  }

  /** A `normsys` followed by a `histosys` of the same name on the same
      sample adds up: the entry is `normhisto` and each bin's shift is the
      normalisation shift plus the shape shift. */
  lemma NormHistoAddsUp(a: Attached, b: Attached)
    requires a.modifier.NormSys? && b.modifier.HistoSys? && a.sample == b.sample
    requires PayloadFits(b.modifier, |b.sample.data|)
    ensures var e := Combined([a, b]).value;
      && e.kind == "normhisto"
      && |e.hi| == |a.sample.data| && |e.lo| == |a.sample.data|
      && forall i :: 0 <= i < |e.hi| ==>
           e.hi[i] == a.sample.data[i] * (a.modifier.hi - 1.0) + (b.modifier.hiData[i] - a.sample.data[i])
           && e.lo[i] == a.sample.data[i] * (a.modifier.lo - 1.0) + (b.modifier.loData[i] - a.sample.data[i])
  {
    assert [a, b][..1] == [a];
    assert [a][..0] == [];
    assert Combined([a]) == Some(Shift(a));
    assert Combined([a, b]) == Some(Merge(Some(Shift(a)), Shift(b)));
  }

  /** The reverse order: a `histosys` followed by a `normsys` of the same
      name on the same sample also adds up into `normhisto`. */
  lemma HistoNormAddsUp(a: Attached, b: Attached)
    requires a.modifier.HistoSys? && b.modifier.NormSys? && a.sample == b.sample
    requires PayloadFits(a.modifier, |a.sample.data|)
    ensures var e := Combined([a, b]).value;
      && e.kind == "normhisto"
      && |e.hi| == |a.sample.data| && |e.lo| == |a.sample.data|
      && forall i :: 0 <= i < |e.hi| ==>
           e.hi[i] == (a.modifier.hiData[i] - a.sample.data[i]) + a.sample.data[i] * (b.modifier.hi - 1.0)
           && e.lo[i] == (a.modifier.loData[i] - a.sample.data[i]) + a.sample.data[i] * (b.modifier.lo - 1.0)
  {
    assert [a, b][..1] == [a];
    assert [a][..0] == [];
    assert Combined([a]) == Some(Shift(a));
    assert Combined([a, b]) == Some(Merge(Some(Shift(a)), Shift(b)));
  }

  /** Any later modifier that does not pair with the entry stored so far
      (two `normsys`, a `staterror`, or a third part after `normhisto`)
      replaces that entry outright. */
  lemma LaterReplaces(xs: seq<Attached>, b: Attached)
    requires Combined(xs).Some? && !PairsWith(Combined(xs).value.kind, Kind(b.modifier))
    ensures Combined(xs + [b]) == Some(Shift(b))
  {
    assert (xs + [b])[..|xs|] == xs;
  }

  /** A `normsys` of 1.2 / 0.9 and a `histosys` of [12, 8] / [9, 7] named
      alike on a nominal of [10, 10]: the shifts accumulate to [4, 0] up
      and [-2, -4] down. */
  lemma MergedPairExample()
    ensures var s := Sample("signal", [10.0, 10.0], []);
      Combined([Attached("SR", s, NormSys("sys1", 1.2, 0.9)),
                Attached("SR", s, HistoSys("sys1", [12.0, 8.0], [9.0, 7.0]))])
        == Some(Uncertainty([4.0, 0.0], [-2.0, -4.0], "normhisto"))
  {
    var s := Sample("signal", [10.0, 10.0], []);
    var a := Attached("SR", s, NormSys("sys1", 1.2, 0.9));
    var b := Attached("SR", s, HistoSys("sys1", [12.0, 8.0], [9.0, 7.0]));
    NormHistoAddsUp(a, b);
    var e := Combined([a, b]).value;
    assert e.hi == [4.0, 0.0];
    assert e.lo == [-2.0, -4.0];
  }

  /** Every systematic in a channel has at least one process, and every
      process entry has `n` bins up and down. */
  predicate Uniform(c: Record<Record<Uncertainty>>, n: nat) {
    && |c| > 0
    && forall j :: 0 <= j < |c| ==>
         && |c[j].value| > 0
         && forall k :: 0 <= k < |c[j].value| ==> |c[j].value[k].value.hi| == n && |c[j].value[k].value.lo| == n
  }

  /** Modifiers that are all systematic and sit on samples of `n` bins. */
  predicate OfBins(xs: seq<Attached>, n: nat) {
    forall i :: 0 <= i < |xs| ==> IsSystematic(xs[i].modifier) && |xs[i].sample.data| == n
  }

  lemma WhereOfBins(xs: seq<Attached>, key: Attached -> string, k: string, n: nat)
    requires OfBins(xs, n)
    ensures OfBins(Where(xs, key, k), n)
  {
    WhereElements(xs, key, k);
  }

  /** One process table: nonempty, and every entry has `n` bins. */
  lemma ProcessShape(w: seq<Attached>, n: nat)
    requires |w| > 0 && OfBins(w, n)
    ensures var s := Accumulate([], w, (), AttachedSample, ProcessStep);
      |s| > 0 && forall k :: 0 <= k < |s| ==> |s[k].value.hi| == n && |s[k].value.lo| == n
  {
    var s := Accumulate([], w, (), AttachedSample, ProcessStep);
    AccumulateNonEmpty(w, (), AttachedSample, ProcessStep);
    forall k | 0 <= k < |s|
      ensures |s[k].value.hi| == n && |s[k].value.lo| == n
    {
      AccumulateEntry(w, (), AttachedSample, ProcessStep, k);
      CombinedFold(w, s[k].key);
      WhereOfBins(w, AttachedSample, s[k].key, n);
      CombinedLength(Where(w, AttachedSample, s[k].key), n);
    }
  }

  /** One channel's systematic table is uniform with `n` bins. */
  lemma SystematicShape(w: seq<Attached>, n: nat)
    requires |w| > 0 && OfBins(w, n)
    ensures Uniform(Accumulate([], w, (), AttachedName, SystematicStep), n)
  {
    var c := Accumulate([], w, (), AttachedName, SystematicStep);
    AccumulateNonEmpty(w, (), AttachedName, SystematicStep);
    forall j | 0 <= j < |c|
      ensures |c[j].value| > 0
      ensures forall k :: 0 <= k < |c[j].value| ==> |c[j].value[k].value.hi| == n && |c[j].value[k].value.lo| == n
    {
      var mn := c[j].key;
      AccumulateEntry(w, (), AttachedName, SystematicStep, j);
      FoldKeyNest(w, mn, (), AttachedName, AttachedSample, ProcessStep, SystematicStep);
      WhereEmpty(w, AttachedName, mn);
      WhereOfBins(w, AttachedName, mn, n);
      ProcessShape(Where(w, AttachedName, mn), n);
    }
  }

  /** A systematic modifier of a well-formed workspace sits on a sample
      with its channel's bin count. */
  lemma SystematicBins(ws: Workspace, k: nat)
    requires WellFormed(ws) && k < |Systematics(ws)|
    ensures var a := Systematics(ws)[k];
      IsSystematic(a.modifier) && |a.sample.data| == Bins(Samples(ws.channels), a.channel)
  {
    var a := Systematics(ws)[k];
    var ps := Samples(ws.channels);
    var i := AttachedOrigin(ps, a);
    assert |ps[i].sample.data| == Bins(ps, ps[i].channel);
  }

  /** The systematic modifiers of one channel name carry its bin count. */
  lemma ChannelOfBins(ws: Workspace, cn: string)
    requires WellFormed(ws)
    ensures OfBins(Where(Systematics(ws), AttachedChannel, cn), Bins(Samples(ws.channels), cn))
  {
    var xs := Systematics(ws);
    var w := Where(xs, AttachedChannel, cn);
    WhereElements(xs, AttachedChannel, cn);
    forall k | 0 <= k < |w|
      ensures IsSystematic(w[k].modifier) && |w[k].sample.data| == Bins(Samples(ws.channels), cn)
    {
      var m :| 0 <= m < |xs| && xs[m] == w[k];
      SystematicBins(ws, m);
    }
  }

  lemma ChannelShape(ws: Workspace, i: nat)
    requires WellFormed(ws) && i < |PerProcess(ws)|
    ensures Uniform(PerProcess(ws)[i].value, Bins(Samples(ws.channels), PerProcess(ws)[i].key))
  {
    var xs := Systematics(ws);
    var cn := PerProcess(ws)[i].key;
    AccumulateEntry(xs, (), AttachedChannel, ChannelStep, i);
    FoldKeyNest(xs, cn, (), AttachedChannel, AttachedName, SystematicStep, ChannelStep);
    WhereEmpty(xs, AttachedChannel, cn);
    ChannelOfBins(ws, cn);
    SystematicShape(Where(xs, AttachedChannel, cn), Bins(Samples(ws.channels), cn));
  }

  /** In a well-formed workspace, every channel of
      `uncertainties_per_systematic_per_process` has at least one
      systematic, every systematic at least one process, and every entry
      the channel's bin count up and down; the later stages read the first
      systematic and the first process for that count. */
  lemma PerProcessShape(ws: Workspace)
    requires WellFormed(ws)
    ensures forall i :: 0 <= i < |PerProcess(ws)| ==>
      Uniform(PerProcess(ws)[i].value, Bins(Samples(ws.channels), PerProcess(ws)[i].key))
  {
    forall i | 0 <= i < |PerProcess(ws)|
      ensures Uniform(PerProcess(ws)[i].value, Bins(Samples(ws.channels), PerProcess(ws)[i].key))
    {
      ChannelShape(ws, i);
    }
  }
}

=== FILE: yields.dfy ===
/** Yields per process: `total_yield_per_process`, `process_names` and
    `yield_of_process_in_channel` of the workspace store. */
module Yields {
  import opened Optional
  import opened Seqs
  import opened Records
  import opened HistFactory
  import opened Sorting

  /** Every sample name of the workspace, in loop order, repeats included. */
  function SampleNames(ws: Workspace): seq<string> {
    KeysOf(Samples(ws.channels), PlacedName)
  }

  /** Reference: the summed bin contents of every listed sample named `p`. */
  function NamedTotal(ps: seq<Placed>, p: string): real {
    if |ps| == 0 then 0.0
    else (if ps[0].sample.name == p then Sum(ps[0].sample.data) else 0.0) + NamedTotal(ps[1..], p)
  }

  /** Reference: the total yield of process `p` over all channels. */
  function TotalOf(ws: Workspace, p: string): real {
    NamedTotal(Samples(ws.channels), p)
  }

  lemma {:induction false} NamedTotalSnoc(ps: seq<Placed>, x: Placed, p: string)
    ensures NamedTotal(ps + [x], p) == NamedTotal(ps, p) + (if x.sample.name == p then Sum(x.sample.data) else 0.0)
  {
    if |ps| == 0 {
      assert ps + [x] == [x];
      assert [x][1..] == [];
    } else {
      assert (ps + [x])[1..] == ps[1..] + [x];
      NamedTotalSnoc(ps[1..], x, p);
    }
  }

  lemma {:induction false} NamedTotalAbsent(ps: seq<Placed>, p: string)
    requires p !in KeysOf(ps, PlacedName)
    ensures NamedTotal(ps, p) == 0.0
  {
    if |ps| > 0 {
      assert KeysOf(ps[1..], PlacedName) == KeysOf(ps, PlacedName)[1..];
      NamedTotalAbsent(ps[1..], p);
    }
  }

  /** The loop body of `total_yield_per_process`: add the sample's summed
      data to the process entry, creating the entry if it is missing. */
  function AddSampleYield(u: (), prev: Option<real>, p: Placed): real {
    var y := Sum(p.sample.data);
    match prev
    case None => y
    case Some(t) => t + y
  }

  lemma {:induction false} YieldFold(ps: seq<Placed>, p: string)
    ensures FoldKey(None, ps, p, (), PlacedName, AddSampleYield)
         == if p in KeysOf(ps, PlacedName) then Some(NamedTotal(ps, p)) else None
  {
    if |ps| > 0 {
      var q := ps[..|ps| - 1];
      var x := ps[|ps| - 1];
      YieldFold(q, p);
      assert ps == q + [x];
      NamedTotalSnoc(q, x, p);
      assert KeysOf(ps, PlacedName) == KeysOf(q, PlacedName) + [x.sample.name];
      if p !in KeysOf(q, PlacedName) {
        NamedTotalAbsent(q, p);
      }
    }
  }

  lemma AccumulatedYields(ws: Workspace)
    ensures var r := Accumulate([], Samples(ws.channels), (), PlacedName, AddSampleYield);
      && UniqueKeys(r)
      && Keys(r) == Distinct(SampleNames(ws))
      && forall k :: 0 <= k < |r| ==> r[k].value == TotalOf(ws, r[k].key)
  {
    var ps := Samples(ws.channels);
    AccumulateFresh(ps, (), PlacedName, AddSampleYield);
    forall k | 0 <= k < |Accumulate([], ps, (), PlacedName, AddSampleYield)|
      ensures Accumulate([], ps, (), PlacedName, AddSampleYield)[k].value
           == TotalOf(ws, Accumulate([], ps, (), PlacedName, AddSampleYield)[k].key)
    {
      YieldAt(ws, k);
    }
  }

  /** One field of the accumulated totals holds its key's total. */
  lemma YieldAt(ws: Workspace, k: nat)
    requires k < |Accumulate([], Samples(ws.channels), (), PlacedName, AddSampleYield)|
    ensures var r := Accumulate([], Samples(ws.channels), (), PlacedName, AddSampleYield);
      r[k].value == TotalOf(ws, r[k].key)
  {
    var ps := Samples(ws.channels);
    var r := Accumulate([], ps, (), PlacedName, AddSampleYield);
    AccumulateEntry(ps, (), PlacedName, AddSampleYield, k);
    YieldFold(ps, r[k].key);
  }

  /** `total_yield_per_process`: one entry per process name, in the order
      the names are first seen, holding the process's summed yield. */
  function TotalYieldPerProcess(ws: Workspace): (r: Record<real>)
    ensures UniqueKeys(r)
    ensures Keys(r) == Distinct(SampleNames(ws))
    ensures forall k :: 0 <= k < |r| ==> r[k].value == TotalOf(ws, r[k].key)
  {
    AccumulatedYields(ws);
    Accumulate([], Samples(ws.channels), (), PlacedName, AddSampleYield)
  }

  /** The names among `names` whose total yield is `v`, in order. */
  function NamesWithTotal(ws: Workspace, names: seq<string>, v: real): seq<string> {
    if |names| == 0 then []
    else (if TotalOf(ws, names[0]) == v then [names[0]] else []) + NamesWithTotal(ws, names[1..], v)
  }

  /** For fields that hold their key's total, filtering by value and taking
      keys commutes with taking keys and filtering by total. */
  lemma {:induction false} KeysWithValue(ws: Workspace, s: Record<real>, v: real)
    requires forall k :: 0 <= k < |s| ==> s[k].value == TotalOf(ws, s[k].key)
    ensures Keys(WithValue(s, v)) == NamesWithTotal(ws, Keys(s), v)
  {
    if |s| > 0 {
      KeysWithValue(ws, s[1..], v);
      KeysCons(s[0], s[1..]);
      assert s == [s[0]] + s[1..];
      assert Keys(s)[1..] == Keys(s[1..]);
      if s[0].value == v {
        KeysCons(s[0], WithValue(s[1..], v));
      } else {
        assert WithValue(s, v) == WithValue(s[1..], v);
      }
    }
  }

  /** `process_names`: the process names sorted by total yield, largest
      first, with equal totals left in first-seen order. */
  function ProcessNames(ws: Workspace): (r: seq<string>)
    ensures multiset(r) == multiset(Distinct(SampleNames(ws)))
    ensures forall i, j :: 0 <= i < j < |r| ==> TotalOf(ws, r[i]) >= TotalOf(ws, r[j])
    ensures forall v :: NamesWithTotal(ws, r, v) == NamesWithTotal(ws, Distinct(SampleNames(ws)), v)
  {
    var items := TotalYieldPerProcess(ws);
    var sorted := SortDesc(items);
    ProcessNamesFacts(ws, items, sorted);
    Keys(sorted)
  }

  lemma ProcessNamesFacts(ws: Workspace, items: Record<real>, sorted: Record<real>)
    requires forall k :: 0 <= k < |items| ==> items[k].value == TotalOf(ws, items[k].key)
    requires multiset(sorted) == multiset(items)
    requires SortedDesc(sorted)
    requires forall v :: WithValue(sorted, v) == WithValue(items, v)
    ensures forall i, j :: 0 <= i < j < |sorted| ==> TotalOf(ws, Keys(sorted)[i]) >= TotalOf(ws, Keys(sorted)[j])
    ensures forall v :: NamesWithTotal(ws, Keys(sorted), v) == NamesWithTotal(ws, Keys(items), v)
  {
    forall k | 0 <= k < |sorted|
      ensures sorted[k].value == TotalOf(ws, sorted[k].key)
    {
      assert sorted[k] in multiset(items);
      var i :| 0 <= i < |items| && items[i] == sorted[k];
    }
    forall v
      ensures NamesWithTotal(ws, Keys(sorted), v) == NamesWithTotal(ws, Keys(items), v)
    {
      KeysWithValue(ws, sorted, v);
      KeysWithValue(ws, items, v);
    }
  }

  /** Channel `i` is the first one named `cn`. */
  predicate FirstChannelNamed(cs: seq<Channel>, i: int, cn: string) {
    0 <= i < |cs| && cs[i].name == cn && forall i' :: 0 <= i' < i ==> cs[i'].name != cn
  }

  /** Sample `j` is the last one named `pn`. */
  predicate LastSampleNamed(ss: seq<Sample>, j: int, pn: string) {
    0 <= j < |ss| && ss[j].name == pn && forall j' :: j < j' < |ss| ==> ss[j'].name != pn
  }

  /** The inner loop of `yield_of_process_in_channel`: the running value is
      overwritten by every sample named `pn`. */
  function LastSampleYield(ss: seq<Sample>, pn: string, current: real): (r: real)
    ensures (forall j :: 0 <= j < |ss| ==> ss[j].name != pn) ==> r == current
    ensures forall j :: LastSampleNamed(ss, j, pn) ==> r == Sum(ss[j].data)
  {
    if |ss| == 0 then current
    else
      var r := LastSampleYield(ss[1..], pn, if ss[0].name == pn then Sum(ss[0].data) else current);
      assert forall j :: 0 < j < |ss| && LastSampleNamed(ss, j, pn) ==> LastSampleNamed(ss[1..], j - 1, pn);
      r
  }

  /** The outer loop: the first channel named `cn` answers, others are skipped. */
  function ChannelYield(cs: seq<Channel>, cn: string, pn: string): (r: real)
    ensures (forall i :: 0 <= i < |cs| ==> cs[i].name != cn) ==> r == 0.0
    ensures forall i :: FirstChannelNamed(cs, i, cn) ==> r == LastSampleYield(cs[i].samples, pn, 0.0)
  {
    if |cs| == 0 then 0.0
    else if cs[0].name == cn then
      assert forall i :: FirstChannelNamed(cs, i, cn) ==> i == 0;
      LastSampleYield(cs[0].samples, pn, 0.0)
    else
      SkipChannel(cs, cn);
      ChannelYield(cs[1..], cn, pn)
  }

  /** Past a first channel of another name, the search goes on in the rest. */
  lemma SkipChannel(cs: seq<Channel>, cn: string)
    requires |cs| > 0 && cs[0].name != cn
    ensures forall i :: FirstChannelNamed(cs, i, cn) ==> FirstChannelNamed(cs[1..], i - 1, cn) && cs[1..][i - 1] == cs[i]
    ensures (forall i :: 0 <= i < |cs| ==> cs[i].name != cn) ==> forall i :: 0 <= i < |cs[1..]| ==> cs[1..][i].name != cn
  {
  }

  /** `yield_of_process_in_channel(cn, pn)`: 0 unless some channel is named
      `cn`; then, in the first such channel, the summed data of the last
      sample named `pn`, or 0 if it has none. */
  function YieldInChannel(ws: Workspace, cn: string, pn: string): (r: real)
    ensures (forall i :: 0 <= i < |ws.channels| ==> ws.channels[i].name != cn) ==> r == 0.0
    ensures forall i :: FirstChannelNamed(ws.channels, i, cn) ==>
      var ss := ws.channels[i].samples;
      && ((forall j :: 0 <= j < |ss| ==> ss[j].name != pn) ==> r == 0.0)
      && (forall j :: LastSampleNamed(ss, j, pn) ==> r == Sum(ss[j].data))
  {
    ChannelYield(ws.channels, cn, pn)
  }
}
